=== FILE: README.md ===
# Inventory movement ledger — a Dafny model

This project models the core of an inventory back end: an append-only ledger
of stock movements with a running balance per (product, warehouse) pair.

- **Write path.** `InventoryMovementsController::store` validates a movement
  request and resolves its movement type ("in" or "out"). It reads the pair's
  prior balance from the highest-id live row of that pair. It refuses a
  movement that would leave the balance negative, and otherwise appends one row
  carrying the new `quantity_total`. As written, the controller then answers
  such an accepted request with a 500 (see "## Findings").
- **Read side of the ledger.** `index` lists the latest (`MAX(id)`) row of
  every product of the caller's company. As written it answers 500 whenever
  that listing is not empty (see "## Findings"); the model states the listing
  itself as well. `show` returns one row, trashed or not. `getStock` reads the
  newest active row of a pair.
- **Soft delete.** `destroy` and `restore` mark a row trashed or clear the mark.
- `restore` and `getStock` have no route in `routes/api.php` or `routes/web.php`. They are modelled as the controller methods they are, which HTTP cannot currently reach.
- **Stock aggregator.** `InventoryController::index` groups a company's rows
  by product and then by warehouse, and sums `quantity_movement`. It keeps the
  products below an optional `quantity_below` threshold and cuts one page out
  of the result by hand.
- **Partner helpers.** From `PartnerModel`: the label of a partner type,
  `isActive`/`isInactive` on a nullable boolean status, and the four query
  scopes as list filters.

Modules:

| module | file | contents |
|---|---|---|
| `Wrappers` | wrappers.dfy | `Option`, `Result` |
| `Seqs` | seqs.dfy | order-preserving filter and its lemmas |
| `Movements` | movements.dfy | the ledger row, failures, the balance of a pair, ids, `find` |
| `BalanceEngine` | balance_engine.dfy | `store` |
| `BalanceTheory` | balance_engine.dfy | properties of sequences of `store` calls |
| `BalanceExample` | balance_example.dfy | a worked in/in/out/out scenario |
| `MovementQueries` | movement_queries.dfy | `index`, `show`, `getStock` of the movements controller |
| `SoftDelete` | soft_delete.dfy | `destroy`, `restore` and their round trips |
| `Grouping` | grouping.dfy | collection `groupBy`, with items and totals preserved |
| `StockAggregator` | stock_aggregator.dfy | `InventoryController::index` |
| `StockTheory` | stock_theory.dfy | summaries and the threshold filter over a whole query |
| `StockExample` | stock_example.dfy | one product in two warehouses |
| `Partners` | partners.dfy | `PartnerModel` helpers and scopes |

Modelling choices:

- **Ledger and ids.** The database is a sequence of rows. Each row has a
  `trashed` flag, which stands for `deleted_at`. A default Eloquent query sees
  only live rows; `withTrashed` sees all of them. A new row's id is one more
  than every id present.
- **Quantities.** Quantities are exact reals.
- **Validation.** The `exists:` rules are membership tests against a
  `Catalogue` of ids. They consult the tables without the soft-delete scope.
  `MovementTypeModel::find` does apply that scope, so a movement type that
  passes validation can still be "not found" when its row is soft-deleted.
  The `exists:` rules on `product_id`, `warehouse_id` and `movement_type`
  check neither soft deletion nor company: an id of a trashed product, or of
  another company's warehouse, passes them.
- **Types other than in/out.** A movement type whose `type` column is neither
  "in" nor "out" leaves `quantity_total` unset. Reading it throws. The
  controller's catch turns that into a 500, modelled as `Internal`.
- **Prior balance ignores the company.** `store` looks up the prior balance by
  product and warehouse only, with no condition on `company_id`, so another
  company's newest row on the same pair supplies it.
  `BalanceTheory.BalanceIgnoresCompany` exhibits the consequence.
- **The aggregator ignores direction.** It sums `quantity_movement` whatever
  the direction of the movement, so "out" rows add to the stock figure. The
  model keeps this behaviour.
- **PHP semantics.**
  - `empty()` on a query string is true for an absent value, `""` and `"0"`.
    The aggregator's `product_id` filter is switched on by that test on the
    text; the number the database compares `product_id` with is given
    alongside the text, so "00" or "abc" filter for product 0.
  - `$user->company_id` must be truthy: neither absent nor 0.
  - The page is cut with `array_slice` semantics. A negative offset (page 0
    or below) counts from the end, clamped to the front.
  - `page_count` is `ceil(total / limit)`.

## Model

| member | source | states |
|---|---|---|
| Movements.Newest | app/Http/Controllers/InventoryMovementsController.php:117-120 | `orderBy(...,'desc')->first()`: none exactly for no rows; otherwise a row of the input whose rank no other row exceeds |
| Movements.NewestAppend | app/Http/Controllers/InventoryMovementsController.php:117-120 | appending a row that outranks every existing row makes it the newest |
| Movements.PairRows | app/Http/Controllers/InventoryMovementsController.php:117-118 | the prior-balance query sees exactly the live rows of the product and warehouse, of any company |
| Movements.PairRowsAppend | app/Http/Controllers/InventoryMovementsController.php:117-118 | appending a row extends a pair's rows exactly when the row is a live row of that pair |
| Movements.Balance | app/Http/Controllers/InventoryMovementsController.php:117-120 | a pair's balance is 0 when it has no live row, and otherwise the `quantity_total` of a live row of the pair with the greatest id |
| Movements.NextId | app/Http/Controllers/InventoryMovementsController.php:154 | the id of an inserted row is positive and above every existing id |
| Movements.IndexOf | app/Http/Controllers/InventoryMovementsController.php:206-208 | `find` / `withTrashed()->find`: the first row with the id that the scope admits, or none exactly when no such row exists |
| BalanceEngine.FindType | app/Http/Controllers/InventoryMovementsController.php:116 | `MovementTypeModel::find`: a live type row with the id, or none exactly when every row with the id is trashed or absent |
| BalanceEngine.SignedQuantity | app/Http/Controllers/InventoryMovementsController.php:129-144 | "in" adds the quantity, "out" subtracts it, and any other kind has no effect defined |
| BalanceEngine.Store | app/Http/Controllers/InventoryMovementsController.php:86-157 | the intended answer (201 for an accepted request; the code as written answers 500, see `StoreAsWritten`): rejected requests leave the ledger unchanged; 422 exactly for invalid input, 404 exactly for an unresolvable type, 500 exactly for a type other than in/out, and "insufficient balance" exactly when prior balance plus signed quantity is negative; an accepted row is appended with the request's fields, a fresh id, a non-negative total, and total minus prior balance equal to the signed quantity |
| BalanceEngine.StoreAsWritten | app/Http/Controllers/InventoryMovementsController.php:154-175 | as written: never answers 201; every request `Store` accepts is answered 500 with its row already appended, and every other answer is `Store`'s |
| BalanceTheory.StoreUpdatesOnlyItsPair | app/Http/Controllers/InventoryMovementsController.php:117-154 | after an accepted store the row's pair has the row's total as its balance, and every other pair keeps its balance |
| BalanceTheory.Replay | app/Http/Controllers/InventoryMovementsController.php:86-157 | a sequence of store calls only appends, at most one row per request, each with a non-negative total |
| BalanceTheory.StoreStep | app/Http/Controllers/InventoryMovementsController.php:129-154 | one store call moves a pair's balance by the signed quantity of the row it accepted on that pair, and by nothing otherwise |
| BalanceTheory.ReplayBalance | app/Http/Controllers/InventoryMovementsController.php:117-154 | after any sequence of store calls a pair's balance is its earlier balance plus the signed quantities of the accepted rows on that pair |
| BalanceTheory.ReplayFromEmpty | app/Http/Controllers/InventoryMovementsController.php:117-154 | from an empty ledger a pair's balance is the sum of its accepted signed quantities |
| BalanceTheory.StoreKeepsNonNegative | app/Http/Controllers/InventoryMovementsController.php:146-151 | store preserves "every row, live or trashed, has a non-negative total", so no balance goes below zero |
| BalanceTheory.StoreKeepsUniqueIds | app/Http/Controllers/InventoryMovementsController.php:154 | store preserves "no two rows share an id" |
| BalanceTheory.InvalidRejected | app/Http/Controllers/InventoryMovementsController.php:93-110 | a missing `product_id`, `warehouse_id`, `movement_type`, `company_id` or `quantity_movement`, a quantity below 0.01, or notes over 500 characters is a 422 that writes nothing |
| BalanceTheory.BalanceIgnoresCompany | app/Http/Controllers/InventoryMovementsController.php:117-120 | another company's row on the same pair serves as the prior balance: 10 minus an out of 4 is stored as 6 |
| BalanceExample.TypesResolve | app/Http/Controllers/InventoryMovementsController.php:116 | the example's two movement types resolve by id |
| BalanceExample.Accepted | app/Http/Controllers/InventoryMovementsController.php:129-154 | a valid in/out request that keeps the balance non-negative is accepted with total = before ± quantity, which becomes the balance |
| BalanceExample.AnsweredButWritten | app/Http/Controllers/InventoryMovementsController.php:154-175 | as written, a valid in of 5 is answered 500 yet writes its row, and retrying it writes a second row, leaving the pair at 10 |
| BalanceExample.Refused | app/Http/Controllers/InventoryMovementsController.php:146-151 | a valid out call larger than the pair's balance is refused as insufficient and writes nothing |
| BalanceExample.InIn | app/Http/Controllers/InventoryMovementsController.php:129-154 | from a pair balance of 0, in 5 then in 3 stores 8 over two new rows |
| BalanceExample.OutOut | app/Http/Controllers/InventoryMovementsController.php:129-154 | from a pair balance of 8, out 8 stores 0 and a further out 1 is refused and writes nothing |
| BalanceExample.InInOutOut | app/Http/Controllers/InventoryMovementsController.php:129-154 | from any ledger where the pair holds nothing: in 5, in 3 gives 8; out 8 gives 0; out 1 is refused as insufficient and writes nothing |
| Grouping.Select | app/Http/Controllers/InventoryController.php:66-67 | the rows with a given key are exactly those of the input with that key |
| Grouping.InsertKeys | app/Http/Controllers/InventoryController.php:66-67 | adding a row adds its key to the bucket keys and no other |
| Grouping.InsertDistinct | app/Http/Controllers/InventoryController.php:66-67 | adding a row keeps bucket keys distinct |
| Grouping.InsertAscending | app/Http/Controllers/InventoryController.php:63-67 | in key order, adding a row keeps the buckets ascending |
| Grouping.InsertLength | app/Http/Controllers/InventoryController.php:66-67 | adding a row opens at most one bucket |
| Grouping.InsertNonEmpty | app/Http/Controllers/InventoryController.php:66-67 | adding a row leaves no bucket empty |
| Grouping.InsertItems | app/Http/Controllers/InventoryController.php:66-67 | adding a row appends it to its key's items and changes no other key's items |
| Grouping.Group | app/Http/Controllers/InventoryController.php:63-72 | `groupBy`: distinct non-empty buckets, no more than the rows, ascending after `orderBy`, each key's items exactly the rows of that key in order, keys exactly the keys of the rows |
| Grouping.GroupBuckets | app/Http/Controllers/InventoryController.php:66-72 | each bucket holds exactly the rows of its key, and at least one |
| Grouping.GroupCovers | app/Http/Controllers/InventoryController.php:66-72 | every row's key has a bucket |
| Grouping.InsertTotal | app/Http/Controllers/InventoryController.php:70 | adding a row raises the sum of bucket totals by the row's quantity |
| Grouping.GroupTotal | app/Http/Controllers/InventoryController.php:70-81 | grouping neither loses nor duplicates quantity |
| MovementQueries.CompanyRows | app/Http/Controllers/InventoryMovementsController.php:32-38 | the company's default query sees exactly its live rows |
| MovementQueries.LatestOfProduct | app/Http/Controllers/InventoryMovementsController.php:32-38 | the `MAX(id)` row of a product among the company's live rows, or none exactly when the product has no such row |
| MovementQueries.Heads | app/Http/Controllers/InventoryMovementsController.php:32-34 | `MAX(id)` per group: one row per bucket, in bucket order, taken from that bucket, with an id no other row of the bucket exceeds |
| MovementQueries.ProductHeadsSpec | app/Http/Controllers/InventoryMovementsController.php:32-40 | the per-product heads are ascending by product, each the latest row of its product, and every product's latest row is among them |
| MovementQueries.FilterAscending | app/Http/Controllers/InventoryMovementsController.php:40-50 | the search filter keeps ascending product order |
| MovementQueries.FilterHeads | app/Http/Controllers/InventoryMovementsController.php:40-50 | filtering latest-per-product rows by the search keeps them ascending and latest, and keeps every latest row the search accepts |
| MovementQueries.SelectedHeadsSpec | app/Http/Controllers/InventoryMovementsController.php:32-50 | the heads the search accepts keep their order and meaning, and none accepted is lost |
| MovementQueries.LatestPerProduct | app/Http/Controllers/InventoryMovementsController.php:20-53 | the listing `index` intends (the code as written answers 500 for a non-empty one, see `IndexAsWritten`): ordered by product, every row is the latest of its product and accepted by the search, and every product whose latest row the search accepts is listed |
| MovementQueries.IndexAsWritten | app/Http/Controllers/InventoryMovementsController.php:36-73 | as written: 200 exactly when no product's latest row is accepted by the search, and then with an empty listing; otherwise 500 |
| MovementQueries.OneRowIs500 | app/Http/Controllers/InventoryMovementsController.php:36-73 | one live row accepted by the search is listed by the intended `index`, and the code as written answers 500 for it |
| MovementQueries.Show | app/Http/Controllers/InventoryMovementsController.php:204-216 | `show`: the row with the id, trashed or not; 404 exactly when no row has it |
| MovementQueries.ActivePairRows | app/Http/Controllers/InventoryMovementsController.php:461-463 | exactly the live rows of the pair whose status is "active", any company |
| MovementQueries.GetStock | app/Http/Controllers/InventoryMovementsController.php:445-467 | 422 exactly for a missing or unknown product or warehouse; otherwise the stock is 0 when the pair has no active row, and else the total of an active row with the latest creation time |
| SoftDelete.Destroy | app/Http/Controllers/InventoryMovementsController.php:304-318 | 404 exactly when no live row has the id, with the ledger unchanged; otherwise that row, and only it, becomes trashed |
| SoftDelete.Restore | app/Http/Controllers/InventoryMovementsController.php:343-362 | 404 exactly when no row has the id; 400 for a live row (exactly, when ids are unique); otherwise that trashed row, and only it, becomes live again |
| SoftDelete.MarkedKeepsIds | app/Http/Controllers/InventoryMovementsController.php:318 | marking a row changes no id, so unique ids stay unique |
| SoftDelete.DestroyThenRestore | app/Http/Controllers/InventoryMovementsController.php:304-362 | restoring right after destroying succeeds and gives back every modelled column of the ledger |
| SoftDelete.RestoreThenDestroy | app/Http/Controllers/InventoryMovementsController.php:304-362 | destroying right after restoring succeeds and gives back every modelled column of the ledger |
| SoftDelete.NoDoubleTransitions | app/Http/Controllers/InventoryMovementsController.php:309-359 | a second destroy of the same row is 404 and a second restore is refused as not deleted |
| SoftDelete.TotalsUntouched | app/Http/Controllers/InventoryMovementsController.php:304-362 | neither call changes any row's quantities: no running total is recomputed |
| SoftDelete.SoftDeleteKeepsInvariants | app/Http/Controllers/InventoryMovementsController.php:304-362 | destroy and restore both preserve unique ids and non-negative totals over all rows |
| StockAggregator.Fetch | app/Http/Controllers/InventoryController.php:44-63 | the query reads exactly the company's live rows that the search accepts, restricted to the requested product when the `product_id` text is not PHP-empty |
| StockAggregator.ZeroTextFilters | app/Http/Controllers/InventoryController.php:40-53 | a non-empty `product_id` text reading as 0 switches the filter on, so only product 0's rows are read |
| StockAggregator.Warehouses | app/Http/Controllers/InventoryController.php:72-83 | one entry per warehouse bucket, carrying that bucket's `warehouse_id` key and quantity sum, and the entries add up to the sum over all buckets |
| StockAggregator.WarehouseSplit | app/Http/Controllers/InventoryController.php:70-83 | the warehouse entries of a product's rows add up to the rows' sum, each entry sums its warehouse's rows, no warehouse appears twice, and every row's warehouse appears |
| StockAggregator.Summarize | app/Http/Controllers/InventoryController.php:68-108 | a product's summary carries the product id and its first row's id, a quantity that sums the rows' magnitudes and equals the sum of the warehouse entries, and one entry per warehouse among the rows |
| StockAggregator.PhpSlice | app/Http/Controllers/InventoryController.php:121 | `array_slice`: consecutive elements from the (possibly end-relative) start, at most `limit`, empty exactly when the start is past the end, full length while enough remain |
| StockAggregator.CeilDiv | app/Http/Controllers/InventoryController.php:128 | `ceil(a / b)`: the fewest pages of `b` that hold `a` items |
| StockAggregator.FilterBelow | app/Http/Controllers/InventoryController.php:110-116 | a summary is kept exactly when it passes the `quantity_below` test, and nothing is added |
| StockAggregator.PageStart | app/Http/Controllers/InventoryController.php:120-128 | a page number from 1 starts inside the list exactly when it is at most the page count |
| StockAggregator.SliceOfPage | app/Http/Controllers/InventoryController.php:120-128 | a page from 1 on is the run of consecutive summaries from (page - 1) * limit, full while enough remain, empty exactly once the offset reaches the total, and non-empty exactly up to the page count |
| StockAggregator.Paginate | app/Http/Controllers/InventoryController.php:119-130 | the block echoes page and limit and counts every kept summary; `page_count` is the fewest pages that hold them; a page from 1 on holds at most `limit` consecutive summaries from (page - 1) * limit, a full page while enough remain and the remainder at the end, and is non-empty exactly when it is at most `page_count`; a page below 1 gives a negative offset, so the page holds up to `limit` summaries counted from that far before the end, clamped to the front |
| StockAggregator.Index | app/Http/Controllers/InventoryController.php:24-131 | 400 exactly when the caller has no company, whatever the limit; limit and page default to 25 and 1; the total counts the summaries that pass the threshold |
| StockTheory.GroupSummary | app/Http/Controllers/InventoryController.php:66-89 | a summary's id is its product's first row, its quantity sums those rows' magnitudes and equals the sum of its per-warehouse quantities, each of which sums that warehouse's rows, one entry per warehouse |
| StockTheory.GroupsByProduct | app/Http/Controllers/InventoryController.php:63-67 | summaries are strictly ascending by product, every fetched product has one, and there are no more than the rows |
| StockTheory.FilterBelowSpec | app/Http/Controllers/InventoryController.php:110-116 | an empty `quantity_below` keeps every summary; otherwise exactly those strictly below it are kept, in order |
| StockTheory.KeptSpec | app/Http/Controllers/InventoryController.php:63-116 | the kept summaries of a query are its product summaries in ascending product order, thresholded as above |
| StockExample.FetchBoth | app/Http/Controllers/InventoryController.php:44-63 | both rows of the example are fetched |
| StockExample.GroupOne | app/Http/Controllers/InventoryController.php:66-67 | one row makes one bucket |
| StockExample.ProductGroup | app/Http/Controllers/InventoryController.php:66-67 | the example's rows form one product bucket |
| StockExample.WarehouseGroup | app/Http/Controllers/InventoryController.php:72 | the example's rows form two warehouse buckets in first-seen order |
| StockExample.Buckets | app/Http/Controllers/InventoryController.php:66-72 | both groupings of the example together |
| StockExample.OneSummary | app/Http/Controllers/InventoryController.php:66-108 | the example's rows give one summary, product 7, totalling 14 over two warehouse entries |
| StockExample.KeptOfOne | app/Http/Controllers/InventoryController.php:110-116 | when a query has one summary it is kept exactly when it passes the threshold test |
| StockExample.Thresholds | app/Http/Controllers/InventoryController.php:110-116 | no threshold keeps the example's summary, 10 drops it (14 is not below 10) and 20 keeps it |
| StockExample.OnePage | app/Http/Controllers/InventoryController.php:119-130 | page 1 of limit 25 over one summary holds exactly that summary |
| StockExample.TwoWarehouses | app/Http/Controllers/InventoryController.php:66-129 | product 7 with 10 and 4 in two warehouses totals 14 over two entries; a threshold of 10 drops it and one of 20 keeps it |
| Partners.IsActive | app/Models/PartnerModel.php:133-136 | `status === true`: an active partner has status true, and a NULL status is never active |
| Partners.IsInactive | app/Models/PartnerModel.php:143-146 | `status === false`: an inactive partner has status false, and a NULL status is never inactive |
| Partners.ActiveInactiveExclusive | app/Models/PartnerModel.php:133-146 | a partner is never both active and inactive, and is one of them exactly when its status is not NULL |
| Partners.UpperFirst | app/Models/PartnerModel.php:163 | `ucfirst`: same length, same tail, an ASCII lower-case first letter upper-cased and anything else unchanged |
| Partners.TypeLabel | app/Models/PartnerModel.php:153-164 | a known type gets its table label, and every label is `ucfirst` of the type |
| Partners.KnownLabels | app/Models/PartnerModel.php:155-161 | each fixed label is its type with the first letter upper-cased |
| Partners.ScopeActive | app/Models/PartnerModel.php:80-83 | exactly the partners whose status is true, each as often as it occurs |
| Partners.ScopeInactive | app/Models/PartnerModel.php:91-94 | exactly the partners whose status is false, each as often as it occurs |
| Partners.ScopeByType | app/Models/PartnerModel.php:103-106 | exactly the partners of the type, each as often as it occurs |
| Partners.ScopeByCompany | app/Models/PartnerModel.php:115-118 | exactly the partners of the company, each as often as it occurs |
| Partners.StatusPartition | app/Models/PartnerModel.php:80-94 | the active, inactive and NULL-status partners split the list between them |

## Left out

- HTTP plumbing is left out: request parsing, JSON envelopes, messages, the eager-loaded relations (`with(...)`, `load(...)`) and the `show`-style fields of the responses. Only the status codes and the data are modelled. Eager loading matters in one place: the movements controller names a relation `moviment_type` that does not exist, and the resulting 500s of `store` and `index` are modelled under "## Findings".
- Authentication is left out. The caller's company is a parameter.
- Database transactions are left out, along with the concurrency race between the prior-balance read and the insert. Each `store` call is modelled as one atomic step.
- The clock is left out; `created_at` of a new row is a parameter. So is the database default of the `status` column, which `store` never sets.
- Search text matching (`LIKE '%...%'` on product name, description or notes) is left out. It is modelled as an arbitrary predicate on rows, because product names live in another table.
- Pagination mechanics of the movements `index` (`paginate`, default limit 20) are left out. The model gives the full ordered listing; the page cut is the framework's.
- MovementQueries.IndexAsWritten: decides on the whole listing. The 500 comes from eager loading the rows of the requested page, so a page past the last one is empty and answered 200 even when the listing is not; pages are not modelled.
- `update`, the `getByProduct` and `getByWarehouse` listings, and the CRUD of the other controllers are left out. They are outside the ledger core.
- Order among rows with equal sort keys (equal `product_id` in the aggregator, equal `created_at` in `getStock`) is left out because SQL leaves it unspecified. The model keeps ledger order.
- `InventoryModel` is not part of this model. The aggregator assumes it reads the `inventory_movements` rows under the same soft-delete scope as `InventoryMovementsModel`.
- StockAggregator.Index: for a caller with a company, requires a positive effective limit. With `limit=0` PHP divides by zero and with a negative limit `array_slice` drops from the end; neither is modelled. A caller without a company gets the 400 whatever the limit.
- StockAggregator.Index: integers are unbounded. When `(page - 1) * limit` overflows a 64-bit integer PHP makes it a float, `array_slice` then throws a TypeError and the answer is a 500; that path is not modelled.
- Movements.NextId: a new id is one more than the largest id present. A MySQL auto-increment counter never reuses ids and can leave gaps, so real ids are only known to be fresh and increasing, not consecutive.
- MovementQueries.ActivePairRows: compares `status` with "active" by exact string equality. Under MySQL's default case-insensitive collation `where('status', 'active')` also matches "Active" or "ACTIVE"; collation is not modelled.
- Partners.ScopeByType: compares `partner_type` by exact string equality. Under MySQL's default case-insensitive collation `where('partner_type', $type)` also matches other casings; collation is not modelled.
- StockAggregator.Below: compares the exact sum with the threshold. The source compares `(float) number_format(sum, 2)`, rounded to two decimals, with `(float)` of the parameter text. Floating point and that rounding are not modelled, and the threshold's numeric reading is given alongside its text.
- StockAggregator.Warehouses: carries the `warehouse_id` column of each bucket and its exact sum. The response's `warehouse.id` is read from the eager-loaded `warehouse` relation (`$w->id ?? null`), so it is null, and the name is "Desconhecido", when that warehouse is soft-deleted; the model does not distinguish that case. The warehouse name and note, and the two-decimal string formatting, are not modelled.
- StockAggregator.Summarize: carries the `product_id` column. The response's `product` block comes from the `product` relation and is null when the product is soft-deleted; that block and its category and unit are not modelled.
- SoftDelete.DestroyThenRestore: `updated_at` is not modelled. The movement model keeps timestamps, so a soft `delete()` and a `restore()` both stamp `updated_at`; the round trips give back every modelled column, not that one.
- SoftDelete.RestoreThenDestroy: likewise leaves `updated_at` out of the columns it gives back.
- BalanceEngine.Store: quantities are exact reals rather than database decimals or PHP floats.
- MovementQueries.GetStock: states that the chosen row has the latest `created_at`. Which of several rows with that same time is chosen is not stated.

## Findings

| source | as written | input that shows it | evidently intended | confidence | as-written member | corrected member |
|---|---|---|---|---|---|---|
| app/Http/Controllers/InventoryMovementsController.php:159 | after the commit, `load([..., 'moviment_type'])` names a relation the movement model does not define (it defines `movement_type`), so the catch answers 500 and its rollback cannot undo the committed row | a valid "in" of 5 on a pair holding 0: the row is written and the answer is 500; a retry writes a second row | load `movement_type` and answer 201 with the new row | high (not executed) | BalanceEngine.StoreAsWritten, BalanceExample.AnsweredButWritten | BalanceEngine.Store |
| app/Http/Controllers/InventoryMovementsController.php:39 | `with([..., 'moviment_type'])` names the same missing relation, so eager loading a non-empty page throws and the catch answers 500 | one live row of company 1, listed for company 1: the answer is 500 | eager-load `movement_type` and answer 200 with the latest row per product | high (not executed) | MovementQueries.IndexAsWritten, MovementQueries.OneRowIs500 | MovementQueries.LatestPerProduct |

=== FILE: balance_engine.dfy ===
/**
 The write path of the ledger (`InventoryMovementsController::store`): validate
 the request, resolve the movement type, read the pair's prior balance, apply
 the signed quantity, refuse a negative result, append one row.
 */
module BalanceEngine {
  import opened Wrappers
  import opened Movements

  /** One row of the `movement_type` table; `kind` is its free-text `type` column. */
  datatype MovementType = MovementType(id: int, companyId: int, kind: string, name: string, trashed: bool)

  /** The ids the `exists:` validation rules consult, table by table (soft-deleted rows included). */
  datatype Catalogue = Catalogue(
    products: set<int>,
    warehouses: set<int>,
    companies: set<int>,
    rentals: set<int>,
    sales: set<int>,
    movementTypes: seq<MovementType>)

  /** The request body, each field already read as its declared type; `None` when absent or null. */
  datatype StoreRequest = StoreRequest(
    productId: Option<int>,
    warehouseId: Option<int>,
    movementType: Option<int>,
    companyId: Option<int>,
    quantityMovement: Option<real>,
    notes: Option<string>,
    rentalId: Option<int>,
    saleId: Option<int>)

  const MinQuantity: real := 0.01
  const MaxNotesLength: nat := 500

  predicate TypeRowExists(types: seq<MovementType>, id: int) {
    exists i :: 0 <= i < |types| && types[i].id == id
  }

  /** The validation rules of `store`: required fields present, referenced ids existing, quantity at least 0.01. */
  predicate Valid(req: StoreRequest, cat: Catalogue) {
    && req.productId.Some? && req.productId.value in cat.products
    && req.warehouseId.Some? && req.warehouseId.value in cat.warehouses
    && req.movementType.Some? && TypeRowExists(cat.movementTypes, req.movementType.value)
    && req.companyId.Some? && req.companyId.value in cat.companies
    && req.quantityMovement.Some? && req.quantityMovement.value >= MinQuantity
    && (req.notes.None? || |req.notes.value| <= MaxNotesLength)
    && (req.rentalId.None? || req.rentalId.value in cat.rentals)
    && (req.saleId.None? || req.saleId.value in cat.sales)
  }

  /** `MovementTypeModel::find(id)`: the first live row with that id. */
  function FindType(types: seq<MovementType>, id: int): (r: Option<MovementType>)
    ensures r.Some? ==> r.value in types && r.value.id == id && !r.value.trashed
    ensures r.None? <==> forall i :: 0 <= i < |types| ==> types[i].id != id || types[i].trashed
  {
    if |types| == 0 then None
    else if types[0].id == id && !types[0].trashed then Some(types[0])
    else FindType(types[1..], id)
  }

  /** The change a movement of the given kind applies; only "in" and "out" have one. */
  function SignedQuantity(kind: string, q: real): (d: Option<real>)
    ensures d.Some? <==> kind == "in" || kind == "out"
    ensures kind == "in" ==> d == Some(q)
    ensures kind == "out" ==> d == Some(-q)
  {
    if kind == "in" then Some(q)
    else if kind == "out" then Some(-q)
    else None
  }

  /** The ledger after a store call together with the call's answer. */
  datatype StoreOutcome = StoreOutcome(ledger: Ledger, result: Result<Movement, Failure>)

  /**
   `store`, as one atomic step. `now` is the clock reading stamped on the new
   row and `defaultStatus` the database default of its `status` column.
   */
  function Store(rows: Ledger, cat: Catalogue, req: StoreRequest, now: int, defaultStatus: Option<string>)
    : (o: StoreOutcome)
    // a rejected request writes nothing; an accepted one appends exactly its row
    ensures o.result.Err? ==> o.ledger == rows
    ensures o.result.Ok? ==> o.ledger == rows + [o.result.value]
    // the error cases, in the order the controller tests them
    ensures o.result == Err(Validation) <==> !Valid(req, cat)
    ensures Valid(req, cat) ==>
              (o.result == Err(MovementTypeMissing) <==> FindType(cat.movementTypes, req.movementType.value).None?)
    ensures Valid(req, cat) && FindType(cat.movementTypes, req.movementType.value).Some? ==>
              (o.result == Err(Internal) <==>
                 SignedQuantity(FindType(cat.movementTypes, req.movementType.value).value.kind,
                                req.quantityMovement.value).None?)
    ensures o.result.Err? ==> o.result.error in {Validation, MovementTypeMissing, Internal, InsufficientBalance}
    // the accepted row: the requested fields, a fresh id, and the new balance
    ensures o.result.Ok? ==>
              var m := o.result.value;
              && Valid(req, cat)
              && m.quantityTotal >= 0.0
              && m.id == NextId(rows) && !m.trashed && m.createdAt == now && m.status == defaultStatus
              && Some(m.productId) == req.productId && Some(m.warehouseId) == req.warehouseId
              && Some(m.companyId) == req.companyId && Some(m.movementType) == req.movementType
              && Some(m.quantityMovement) == req.quantityMovement
              && m.notes == req.notes && m.rentalId == req.rentalId && m.saleId == req.saleId
              && FindType(cat.movementTypes, m.movementType).Some?
              && SignedQuantity(FindType(cat.movementTypes, m.movementType).value.kind, m.quantityMovement)
                 == Some(m.quantityTotal - Balance(rows, m.productId, m.warehouseId))
    // an in/out movement of a valid request is refused exactly when it would leave the pair negative
    ensures Valid(req, cat) && FindType(cat.movementTypes, req.movementType.value).Some? ==>
              var d := SignedQuantity(FindType(cat.movementTypes, req.movementType.value).value.kind,
                                      req.quantityMovement.value);
              d.Some? ==>
                (o.result == Err(InsufficientBalance) <==>
                   Balance(rows, req.productId.value, req.warehouseId.value) + d.value < 0.0)
  {
    if !Valid(req, cat) then StoreOutcome(rows, Err(Validation))
    else
      match FindType(cat.movementTypes, req.movementType.value)
      case None => StoreOutcome(rows, Err(MovementTypeMissing))
      case Some(t) =>
        // the prior balance ignores the company of the request
        var prior := Balance(rows, req.productId.value, req.warehouseId.value);
        match SignedQuantity(t.kind, req.quantityMovement.value)
        case None => StoreOutcome(rows, Err(Internal))
        case Some(d) =>
          var total := prior + d;
          if total < 0.0 then StoreOutcome(rows, Err(InsufficientBalance))
          else
            var m := Movement(NextId(rows), req.companyId.value, req.productId.value, req.warehouseId.value,
                              req.movementType.value, req.rentalId, req.saleId, req.quantityMovement.value,
                              total, req.notes, defaultStatus, now, false);
            StoreOutcome(rows + [m], Ok(m))
  }

  /**
   `store` as the controller is written. After the commit it eager-loads a
   relation named `moviment_type`, which the movement model does not define
   (its relation is `movement_type`). The exception reaches the catch, whose
   rollback comes after the commit, so every request `Store` accepts is
   answered 500 with its row already written; every other answer is `Store`'s.
   */
  function StoreAsWritten(rows: Ledger, cat: Catalogue, req: StoreRequest, now: int, defaultStatus: Option<string>)
    : (o: StoreOutcome)
    ensures !o.result.Ok?
    ensures o.ledger == Store(rows, cat, req, now, defaultStatus).ledger
    ensures Store(rows, cat, req, now, defaultStatus).result.Ok? ==>
              o.result == Err(Internal) && o.ledger == rows + [Store(rows, cat, req, now, defaultStatus).result.value]
    ensures Store(rows, cat, req, now, defaultStatus).result.Err? ==> o == Store(rows, cat, req, now, defaultStatus)
  {
    var s := Store(rows, cat, req, now, defaultStatus);
    if s.result.Ok? then StoreOutcome(s.ledger, Err(Internal)) else s
  }
}

/** Properties of sequences of store calls on the ledger. */
module BalanceTheory {
  import opened Wrappers
  import opened Movements
  import opened BalanceEngine

  /** A successful store makes its row the pair's balance and leaves every other pair's balance alone. */
  lemma StoreUpdatesOnlyItsPair(rows: Ledger, cat: Catalogue, req: StoreRequest, now: int,
                                ds: Option<string>, p: int, w: int)
    requires Store(rows, cat, req, now, ds).result.Ok?
    ensures var o := Store(rows, cat, req, now, ds);
            var m := o.result.value;
            Balance(o.ledger, p, w)
              == if m.productId == p && m.warehouseId == w then m.quantityTotal else Balance(rows, p, w)
  {
    var o := Store(rows, cat, req, now, ds);
    var m := o.result.value;
    PairRowsAppend(rows, m, p, w);
    if m.productId == p && m.warehouseId == w {
      var pair := PairRows(rows, p, w);
      forall i | 0 <= i < |pair| ensures Rank(pair[i], ById) < Rank(m, ById) {
        assert pair[i] in rows;
      }
      NewestAppend(pair, m, ById);
    } else {
      assert PairRows(o.ledger, p, w) == PairRows(rows, p, w);
    }
  }

  /** The signed change an accepted row applied, read back from its movement type. */
  function Delta(cat: Catalogue, m: Movement): real {
    match FindType(cat.movementTypes, m.movementType)
    case None => 0.0
    case Some(t) =>
      match SignedQuantity(t.kind, m.quantityMovement)
      case None => 0.0
      case Some(d) => d
  }

  /** The sum of the signed changes of the accepted rows on one pair, in insertion order. */
  function PairDeltas(cat: Catalogue, accepted: seq<Movement>, p: int, w: int): real {
    if |accepted| == 0 then 0.0
    else
      var m := accepted[|accepted| - 1];
      PairDeltas(cat, accepted[..|accepted| - 1], p, w)
        + (if m.productId == p && m.warehouseId == w then Delta(cat, m) else 0.0)
  }

  /** The ledger after a sequence of store calls and the rows they appended. */
  datatype Replayed = Replayed(ledger: Ledger, accepted: seq<Movement>)

  /** Apply the requests one after another, each at clock reading `now`. */
  function Replay(rows: Ledger, cat: Catalogue, reqs: seq<StoreRequest>, now: int, ds: Option<string>)
    : (r: Replayed)
    ensures r.ledger == rows + r.accepted
    ensures |r.accepted| <= |reqs|
    ensures forall i :: 0 <= i < |r.accepted| ==> r.accepted[i].quantityTotal >= 0.0
  {
    if |reqs| == 0 then Replayed(rows, [])
    else
      var prev := Replay(rows, cat, reqs[..|reqs| - 1], now, ds);
      var o := Store(prev.ledger, cat, reqs[|reqs| - 1], now, ds);
      match o.result
      case Err(_) => prev
      case Ok(m) => Replayed(o.ledger, prev.accepted + [m])
  }

  /** One store call moves a pair's balance by the signed quantity of the row it accepted on that pair. */
  lemma StoreStep(rows: Ledger, cat: Catalogue, req: StoreRequest, now: int, ds: Option<string>, p: int, w: int)
    ensures var o := Store(rows, cat, req, now, ds);
            Balance(o.ledger, p, w) == Balance(rows, p, w)
              + (if o.result.Ok? && o.result.value.productId == p && o.result.value.warehouseId == w
                 then Delta(cat, o.result.value) else 0.0)
  {
    var o := Store(rows, cat, req, now, ds);
    if o.result.Ok? {
      StoreUpdatesOnlyItsPair(rows, cat, req, now, ds, p, w);
    }
  }

  /**
   The running balance of a pair after any sequence of store calls is its
   balance before them plus the signed quantities of the accepted ones on
   that pair; rejected calls contribute nothing.
   */
  lemma {:induction false} ReplayBalance(rows: Ledger, cat: Catalogue, reqs: seq<StoreRequest>, now: int,
                                         ds: Option<string>, p: int, w: int)
    ensures var r := Replay(rows, cat, reqs, now, ds);
            Balance(r.ledger, p, w) == Balance(rows, p, w) + PairDeltas(cat, r.accepted, p, w)
  {
    if |reqs| > 0 {
      var prev := Replay(rows, cat, reqs[..|reqs| - 1], now, ds);
      ReplayBalance(rows, cat, reqs[..|reqs| - 1], now, ds, p, w);
      var req := reqs[|reqs| - 1];
      StoreStep(prev.ledger, cat, req, now, ds, p, w);
      var o := Store(prev.ledger, cat, req, now, ds);
      if o.result.Ok? {
        var acc := prev.accepted + [o.result.value];
        assert acc[..|prev.accepted|] == prev.accepted;
        assert PairDeltas(cat, acc, p, w) == PairDeltas(cat, prev.accepted, p, w)
          + (if o.result.value.productId == p && o.result.value.warehouseId == w
             then Delta(cat, o.result.value) else 0.0);
      }
    }
  }

  /** From an empty ledger, a pair's balance is exactly the sum of its accepted signed quantities. */
  lemma ReplayFromEmpty(cat: Catalogue, reqs: seq<StoreRequest>, now: int, ds: Option<string>, p: int, w: int)
    ensures var r := Replay([], cat, reqs, now, ds);
            Balance(r.ledger, p, w) == PairDeltas(cat, r.accepted, p, w)
  {
    ReplayBalance([], cat, reqs, now, ds, p, w);
  }

  /** Store keeps every running total non-negative, so no pair's balance ever goes below zero. */
  lemma StoreKeepsNonNegative(rows: Ledger, cat: Catalogue, req: StoreRequest, now: int,
                              ds: Option<string>, p: int, w: int)
    requires NonNegative(rows)
    ensures NonNegative(Store(rows, cat, req, now, ds).ledger)
    ensures Balance(Store(rows, cat, req, now, ds).ledger, p, w) >= 0.0
  {
    var l := Store(rows, cat, req, now, ds).ledger;
    assert NonNegative(l);
    if exists m :: m in l && Live(m) && m.productId == p && m.warehouseId == w {
      var m :| m in l && Live(m) && m.productId == p && m.warehouseId == w && Balance(l, p, w) == m.quantityTotal;
      var i :| 0 <= i < |l| && l[i] == m;
    }
  }

  /**
   A request missing a required field, moving less than 0.01, or carrying
   notes longer than 500 characters is refused as a validation error before
   any balance is read, and writes nothing.
   */
  lemma InvalidRejected(rows: Ledger, cat: Catalogue, req: StoreRequest, now: int, ds: Option<string>)
    requires || req.productId.None? || req.warehouseId.None? || req.movementType.None?
             || req.companyId.None? || req.quantityMovement.None?
             || req.quantityMovement.value < MinQuantity
             || (req.notes.Some? && |req.notes.value| > MaxNotesLength)
    ensures Store(rows, cat, req, now, ds).result == Err(Validation)
    ensures Store(rows, cat, req, now, ds).ledger == rows
  {
  }

  /** Store gives its row an id no existing row has, so distinct ids stay distinct. */
  lemma StoreKeepsUniqueIds(rows: Ledger, cat: Catalogue, req: StoreRequest, now: int, ds: Option<string>)
    requires UniqueIds(rows)
    ensures UniqueIds(Store(rows, cat, req, now, ds).ledger)
  {
  }

  /** The prior balance does not look at the company: another company's row on the same pair is used. */
  lemma BalanceIgnoresCompany(cat: Catalogue, req: StoreRequest, other: Movement)
    requires !other.trashed && other.quantityTotal == 10.0
    requires req.productId == Some(other.productId) && req.warehouseId == Some(other.warehouseId)
    requires req.companyId.Some? && req.companyId.value != other.companyId
    requires Valid(req, cat) && FindType(cat.movementTypes, req.movementType.value).Some?
    requires FindType(cat.movementTypes, req.movementType.value).value.kind == "out"
    requires req.quantityMovement == Some(4.0)
    ensures var o := Store([other], cat, req, 0, None);
            o.result.Ok? && o.result.value.quantityTotal == 6.0 && o.result.value.companyId != other.companyId
  {
    var o := Store([other], cat, req, 0, None);
    assert PairRows([other], other.productId, other.warehouseId) == [other] by {
      PairRowsAppend([], other, other.productId, other.warehouseId);
      assert [] + [other] == [other];
    }
  }
}

=== FILE: balance_example.dfy ===
/** A worked sequence of store calls on one product and warehouse. */
module BalanceExample {
  import opened Wrappers
  import opened Movements
  import opened BalanceEngine
  import BalanceTheory

  const Types: seq<MovementType> :=
    [MovementType(1, 1, "in", "Entrada", false), MovementType(2, 1, "out", "Saida", false)]

  const Cat: Catalogue := Catalogue({1}, {1}, {1}, {}, {}, Types)

  /** A request on product 1, warehouse 1, company 1. */
  function Request(typeId: int, q: real): StoreRequest {
    StoreRequest(Some(1), Some(1), Some(typeId), Some(1), Some(q), None, None, None)
  }

  lemma TypesResolve()
    ensures FindType(Types, 1) == Some(Types[0]) && FindType(Types, 2) == Some(Types[1])
    ensures TypeRowExists(Types, 1) && TypeRowExists(Types, 2)
  {
    assert Types[0].id == 1 && Types[1].id == 2;
  }

  /** One accepted call on the example pair, starting from a known balance. */
  lemma Accepted(rows: Ledger, typeId: int, q: real, before: real)
    requires typeId == 1 || typeId == 2
    requires q >= 0.01 && Balance(rows, 1, 1) == before
    requires before + (if typeId == 1 then q else -q) >= 0.0
    ensures var o := Store(rows, Cat, Request(typeId, q), 0, None);
            && o.result.Ok?
            && o.result.value.quantityTotal == before + (if typeId == 1 then q else -q)
            && Balance(o.ledger, 1, 1) == o.result.value.quantityTotal
            && |o.ledger| == |rows| + 1
  {
    TypesResolve();
    var o := Store(rows, Cat, Request(typeId, q), 0, None);
    assert Valid(Request(typeId, q), Cat);
    BalanceTheory.StoreUpdatesOnlyItsPair(rows, Cat, Request(typeId, q), 0, None, 1, 1);
  }

  /** An out call larger than the balance is refused as insufficient and writes nothing. */
  lemma Refused(rows: Ledger, q: real, before: real)
    requires q >= 0.01 && Balance(rows, 1, 1) == before && before - q < 0.0
    ensures Store(rows, Cat, Request(2, q), 0, None).result == Err(InsufficientBalance)
    ensures Store(rows, Cat, Request(2, q), 0, None).ledger == rows
  {
    TypesResolve();
    assert Valid(Request(2, q), Cat);
  }

  /**
   As the controller is written, a valid in of 5 from a balance of 0 is
   answered 500 yet writes its row; retrying it writes a second row, again
   answered 500, and the pair then holds 10.
   */
  lemma AnsweredButWritten(start: Ledger)
    requires Balance(start, 1, 1) == 0.0
    ensures var o1 := StoreAsWritten(start, Cat, Request(1, 5.0), 0, None);
            var o2 := StoreAsWritten(o1.ledger, Cat, Request(1, 5.0), 0, None);
            && o1.result == Err(Internal) && |o1.ledger| == |start| + 1
            && o2.result == Err(Internal) && |o2.ledger| == |start| + 2
            && Balance(o2.ledger, 1, 1) == 10.0
  {
    var s1 := Store(start, Cat, Request(1, 5.0), 0, None);
    Accepted(start, 1, 5.0, 0.0);
    Accepted(s1.ledger, 1, 5.0, 5.0);
  }

  /** From a balance of 0, in 5 then in 3 leaves 8, over two new rows. */
  lemma InIn(start: Ledger)
    requires Balance(start, 1, 1) == 0.0
    ensures var s1 := Store(start, Cat, Request(1, 5.0), 0, None);
            var s2 := Store(s1.ledger, Cat, Request(1, 3.0), 0, None);
            && s2.result.Ok? && s2.result.value.quantityTotal == 8.0
            && Balance(s2.ledger, 1, 1) == 8.0 && |s2.ledger| == |start| + 2
  {
    var s1 := Store(start, Cat, Request(1, 5.0), 0, None);
    Accepted(start, 1, 5.0, 0.0);
    Accepted(s1.ledger, 1, 3.0, 5.0);
  }

  /** From a balance of 8, out 8 leaves 0, and a further out 1 is refused and writes nothing. */
  lemma OutOut(mid: Ledger)
    requires Balance(mid, 1, 1) == 8.0
    ensures var s3 := Store(mid, Cat, Request(2, 8.0), 0, None);
            var s4 := Store(s3.ledger, Cat, Request(2, 1.0), 0, None);
            && s3.result.Ok? && s3.result.value.quantityTotal == 0.0
            && s4.result == Err(InsufficientBalance) && s4.ledger == s3.ledger
            && |s3.ledger| == |mid| + 1
  {
    var s3 := Store(mid, Cat, Request(2, 8.0), 0, None);
    Accepted(mid, 2, 8.0, 8.0);
    Refused(s3.ledger, 1.0, 0.0);
  }

  /**
   From any ledger in which the pair holds nothing: in 5 then in 3 gives 8;
   out 8 then gives 0; a further out 1 is refused and writes nothing.
   */
  lemma InInOutOut(start: Ledger)
    requires Balance(start, 1, 1) == 0.0
    ensures var s1 := Store(start, Cat, Request(1, 5.0), 0, None);
            var s2 := Store(s1.ledger, Cat, Request(1, 3.0), 0, None);
            var s3 := Store(s2.ledger, Cat, Request(2, 8.0), 0, None);
            var s4 := Store(s3.ledger, Cat, Request(2, 1.0), 0, None);
            && s2.result.Ok? && s2.result.value.quantityTotal == 8.0
            && s3.result.Ok? && s3.result.value.quantityTotal == 0.0
            && s4.result == Err(InsufficientBalance) && s4.ledger == s3.ledger
            && |s3.ledger| == |start| + 3
  {
    InIn(start);
    OutOut(Store(Store(start, Cat, Request(1, 5.0), 0, None).ledger, Cat, Request(1, 3.0), 0, None).ledger);
  }
}

=== FILE: grouping.dfy ===
/**
 Grouping ledger rows by an integer column, as a collection `groupBy` does:
 each bucket holds the rows of one key, in ledger order.
 */
module Grouping {
  import opened Movements
  import Seqs

  datatype Bucket = Bucket(key: int, items: seq<Movement>)

  /** Where a bucket for a key not seen before is placed. */
  datatype KeyOrder =
    | AscendingKeys    // in key order, as after `orderBy` on the grouping column
    | FirstSeen        // at the end, in order of first appearance

  /** The rows of `xs` whose key is `k`, in their original order. */
  function Select(xs: seq<Movement>, key: Movement -> int, k: int): (r: seq<Movement>)
    ensures forall m :: m in r <==> m in xs && key(m) == k
  {
    Seqs.Filter(xs, (m: Movement) => key(m) == k)
  }

  /** The items of the bucket with key `k`, or none. */
  function ItemsOf(gs: seq<Bucket>, k: int): seq<Movement> {
    if |gs| == 0 then []
    else if gs[0].key == k then gs[0].items
    else ItemsOf(gs[1..], k)
  }

  function Keys(gs: seq<Bucket>): set<int> {
    set i | 0 <= i < |gs| :: gs[i].key
  }

  predicate Ascending(gs: seq<Bucket>) {
    forall i, j :: 0 <= i < j < |gs| ==> gs[i].key < gs[j].key
  }

  predicate DistinctKeys(gs: seq<Bucket>) {
    forall i, j :: 0 <= i < j < |gs| ==> gs[i].key != gs[j].key
  }

  predicate NonEmptyBuckets(gs: seq<Bucket>) {
    forall i :: 0 <= i < |gs| ==> |gs[i].items| > 0
  }

  /** Add one row to its bucket, opening a new bucket when its key is new. */
  function Insert(gs: seq<Bucket>, x: Movement, key: Movement -> int, order: KeyOrder): seq<Bucket> {
    if |gs| == 0 then [Bucket(key(x), [x])]
    else if gs[0].key == key(x) then [Bucket(gs[0].key, gs[0].items + [x])] + gs[1..]
    else if order == AscendingKeys && gs[0].key > key(x) then [Bucket(key(x), [x])] + gs
    else [gs[0]] + Insert(gs[1..], x, key, order)
  }

  /** Insertion adds the row's key to the keys and nothing else. */
  lemma {:induction false} InsertKeys(gs: seq<Bucket>, x: Movement, key: Movement -> int, order: KeyOrder)
    ensures Keys(Insert(gs, x, key, order)) == Keys(gs) + {key(x)}
  {
    var r := Insert(gs, x, key, order);
    if |gs| == 0 {
      assert r[0].key == key(x);
    } else if gs[0].key == key(x) {
      KeysCons(gs[0], gs[1..]);
      assert [gs[0]] + gs[1..] == gs;
      KeysCons(r[0], gs[1..]);
    } else if order == AscendingKeys && gs[0].key > key(x) {
      KeysCons(Bucket(key(x), [x]), gs);
    } else {
      InsertKeys(gs[1..], x, key, order);
      KeysCons(gs[0], gs[1..]);
      assert [gs[0]] + gs[1..] == gs;
      KeysCons(gs[0], Insert(gs[1..], x, key, order));
    }
  }

  /** Insertion keeps keys distinct. */
  lemma {:induction false} InsertDistinct(gs: seq<Bucket>, x: Movement, key: Movement -> int, order: KeyOrder)
    requires DistinctKeys(gs) && (order == AscendingKeys ==> Ascending(gs))
    ensures DistinctKeys(Insert(gs, x, key, order))
  {
    var r := Insert(gs, x, key, order);
    if |gs| == 0 {
    } else if gs[0].key == key(x) {
      forall i, j | 0 <= i < j < |r| ensures r[i].key != r[j].key {
        assert r[j] == gs[j];
        assert i > 0 ==> r[i] == gs[i];
      }
    } else if order == AscendingKeys && gs[0].key > key(x) {
      forall i, j | 0 <= i < j < |r| ensures r[i].key != r[j].key {
        assert r[j] == gs[j - 1];
        if i > 0 {
          assert r[i] == gs[i - 1];
        } else {
          AboveHeadNotIn(gs, key(x));
          assert gs[j - 1].key in Keys(gs);
        }
      }
    } else {
      var rest := Insert(gs[1..], x, key, order);
      InsertDistinct(gs[1..], x, key, order);
      InsertKeys(gs[1..], x, key, order);
      HeadNotInTail(gs);
      forall i, j | 0 <= i < j < |r| ensures r[i].key != r[j].key {
        assert r[j] == rest[j - 1];
        if i > 0 {
          assert r[i] == rest[i - 1];
        } else {
          assert r[j].key in Keys(rest);
        }
      }
    }
  }

  /** Insertion in key order keeps keys ascending. */
  lemma {:induction false} InsertAscending(gs: seq<Bucket>, x: Movement, key: Movement -> int)
    requires Ascending(gs)
    ensures Ascending(Insert(gs, x, key, AscendingKeys))
  {
    var r := Insert(gs, x, key, AscendingKeys);
    if |gs| == 0 {
    } else if gs[0].key == key(x) {
      forall i, j | 0 <= i < j < |r| ensures r[i].key < r[j].key {
        assert r[j] == gs[j];
        assert i > 0 ==> r[i] == gs[i];
      }
    } else if gs[0].key > key(x) {
      forall i, j | 0 <= i < j < |r| ensures r[i].key < r[j].key {
        assert r[j] == gs[j - 1];
        if i > 0 {
          assert r[i] == gs[i - 1];
        } else if j > 1 {
          assert gs[0].key < gs[j - 1].key;
        }
      }
    } else {
      var rest := Insert(gs[1..], x, key, AscendingKeys);
      InsertAscending(gs[1..], x, key);
      InsertKeys(gs[1..], x, key, AscendingKeys);
      forall i, j | 0 <= i < j < |r| ensures r[i].key < r[j].key {
        assert r[j] == rest[j - 1];
        if i > 0 {
          assert r[i] == rest[i - 1];
        } else {
          assert r[j].key in Keys(rest);
          if r[j].key != key(x) {
            var t :| 0 <= t < |gs[1..]| && gs[1..][t].key == r[j].key;
            assert gs[t + 1].key == r[j].key;
          }
        }
      }
    }
  }

  /** Insertion opens at most one bucket. */
  lemma {:induction false} InsertLength(gs: seq<Bucket>, x: Movement, key: Movement -> int, order: KeyOrder)
    ensures |Insert(gs, x, key, order)| <= |gs| + 1
  {
    if |gs| > 0 && gs[0].key != key(x) && !(order == AscendingKeys && gs[0].key > key(x)) {
      InsertLength(gs[1..], x, key, order);
    }
  }

  /** Insertion keeps every bucket non-empty. */
  lemma {:induction false} InsertNonEmpty(gs: seq<Bucket>, x: Movement, key: Movement -> int, order: KeyOrder)
    requires NonEmptyBuckets(gs)
    ensures NonEmptyBuckets(Insert(gs, x, key, order))
  {
    if |gs| > 0 && gs[0].key != key(x) && !(order == AscendingKeys && gs[0].key > key(x)) {
      InsertNonEmpty(gs[1..], x, key, order);
    }
  }

  /** Insertion appends the row to the items of its own key and changes no other key's items. */
  lemma {:induction false} InsertItems(gs: seq<Bucket>, x: Movement, key: Movement -> int, order: KeyOrder, k: int)
    requires DistinctKeys(gs) && (order == AscendingKeys ==> Ascending(gs))
    ensures ItemsOf(Insert(gs, x, key, order), k) == ItemsOf(gs, k) + (if k == key(x) then [x] else [])
  {
    var r := Insert(gs, x, key, order);
    if |gs| == 0 {
    } else if gs[0].key == key(x) {
      if k == key(x) {
        NotInTail(gs, key(x));
      } else {
        assert r[1..] == gs[1..];
      }
    } else if order == AscendingKeys && gs[0].key > key(x) {
      assert r[1..] == gs;
      if k == key(x) { AboveHeadNotIn(gs, key(x)); }
    } else {
      assert r[1..] == Insert(gs[1..], x, key, order);
      InsertItems(gs[1..], x, key, order, k);
    }
  }

  lemma KeysCons(b: Bucket, gs: seq<Bucket>)
    ensures Keys([b] + gs) == {b.key} + Keys(gs)
  {
    var r := [b] + gs;
    forall k | k in Keys(r) ensures k in {b.key} + Keys(gs) {
      var i :| 0 <= i < |r| && r[i].key == k;
      if i > 0 { assert gs[i - 1].key == k; }
    }
    forall k | k in Keys(gs) ensures k in Keys(r) {
      var i :| 0 <= i < |gs| && gs[i].key == k;
      assert r[i + 1].key == k;
    }
    assert r[0].key == b.key;
  }

  /** With distinct keys, the head key does not occur again. */
  lemma HeadNotInTail(gs: seq<Bucket>)
    requires |gs| > 0 && DistinctKeys(gs)
    ensures gs[0].key !in Keys(gs[1..])
  {
    forall i | 0 <= i < |gs[1..]| ensures gs[1..][i].key != gs[0].key {
      assert gs[1..][i] == gs[i + 1];
    }
  }

  /** With distinct keys, the items of the tail under the head's key are empty. */
  lemma NotInTail(gs: seq<Bucket>, k: int)
    requires |gs| > 0 && DistinctKeys(gs) && gs[0].key == k
    ensures ItemsOf(gs[1..], k) == []
  {
    HeadNotInTail(gs);
    AbsentKey(gs[1..], k);
  }

  /** A key below the head of an ascending grouping has no bucket. */
  lemma AboveHeadNotIn(gs: seq<Bucket>, k: int)
    requires |gs| > 0 && Ascending(gs) && k < gs[0].key
    ensures ItemsOf(gs, k) == [] && k !in Keys(gs)
  {
    forall i | 0 <= i < |gs| ensures gs[i].key != k {
      if i > 0 { assert gs[0].key < gs[i].key; }
    }
    AbsentKey(gs, k);
  }

  /** A key with no bucket has no items. */
  lemma AbsentKey(gs: seq<Bucket>, k: int)
    requires k !in Keys(gs)
    ensures ItemsOf(gs, k) == []
  {
    if |gs| > 0 {
      assert Keys(gs[1..]) <= Keys(gs) by {
        forall j | j in Keys(gs[1..]) ensures j in Keys(gs) {
          var i :| 0 <= i < |gs[1..]| && gs[1..][i].key == j;
          assert gs[i + 1].key == j;
        }
      }
      AbsentKey(gs[1..], k);
    }
  }

  /** With distinct keys, a bucket's items are what `ItemsOf` finds under its key. */
  lemma ItemsOfBucket(gs: seq<Bucket>, i: int)
    requires DistinctKeys(gs) && 0 <= i < |gs|
    ensures ItemsOf(gs, gs[i].key) == gs[i].items
  {
    if i > 0 {
      assert gs[0].key != gs[i].key;
      ItemsOfBucket(gs[1..], i - 1);
    }
  }

  /** `groupBy`: one bucket per key of `xs`, each holding exactly the rows of that key. */
  function Group(xs: seq<Movement>, key: Movement -> int, order: KeyOrder): (gs: seq<Bucket>)
    ensures DistinctKeys(gs) && NonEmptyBuckets(gs) && |gs| <= |xs|
    ensures order == AscendingKeys ==> Ascending(gs)
    ensures forall k :: ItemsOf(gs, k) == Select(xs, key, k)
    ensures Keys(gs) == set m | m in xs :: key(m)
  {
    if |xs| == 0 then []
    else
      var init := xs[..|xs| - 1];
      var x := xs[|xs| - 1];
      assert xs == init + [x];
      var g := Group(init, key, order);
      InsertKeys(g, x, key, order);
      InsertDistinct(g, x, key, order);
      assert order == AscendingKeys ==> Ascending(Insert(g, x, key, order)) by {
        if order == AscendingKeys { InsertAscending(g, x, key); }
      }
      InsertNonEmpty(g, x, key, order);
      InsertLength(g, x, key, order);
      forall k ensures ItemsOf(Insert(g, x, key, order), k) == Select(xs, key, k) {
        InsertItems(g, x, key, order, k);
      }
      var r := Insert(Group(init, key, order), x, key, order);
      assert (set m | m in xs :: key(m)) == (set m | m in init :: key(m)) + {key(x)};
      r
  }

  /** Each bucket of a grouping holds exactly the rows of its key, and at least one. */
  lemma GroupBuckets(xs: seq<Movement>, key: Movement -> int, order: KeyOrder, i: int)
    requires 0 <= i < |Group(xs, key, order)|
    ensures var b := Group(xs, key, order)[i];
            b.items == Select(xs, key, b.key) && |b.items| > 0
            && forall m :: m in b.items ==> key(m) == b.key
  {
    ItemsOfBucket(Group(xs, key, order), i);
  }

  /** Every row's key has a bucket. */
  lemma GroupCovers(xs: seq<Movement>, key: Movement -> int, order: KeyOrder, m: Movement)
    requires m in xs
    ensures exists i :: 0 <= i < |Group(xs, key, order)| && Group(xs, key, order)[i].key == key(m)
  {
    assert key(m) in Keys(Group(xs, key, order));
  }

  /** The sum of `quantity_movement` over some rows. */
  function Total(xs: seq<Movement>): real {
    if |xs| == 0 then 0.0 else Total(xs[..|xs| - 1]) + xs[|xs| - 1].quantityMovement
  }

  /** The sum of the bucket totals of a grouping. */
  function BucketsTotal(gs: seq<Bucket>): real {
    if |gs| == 0 then 0.0 else Total(gs[0].items) + BucketsTotal(gs[1..])
  }

  lemma {:induction false} InsertTotal(gs: seq<Bucket>, x: Movement, key: Movement -> int, order: KeyOrder)
    ensures BucketsTotal(Insert(gs, x, key, order)) == BucketsTotal(gs) + x.quantityMovement
  {
    var r := Insert(gs, x, key, order);
    if |gs| == 0 {
      assert Total([x]) == Total([]) + x.quantityMovement by { assert [x][..0] == []; }
    } else if gs[0].key == key(x) {
      var items := gs[0].items + [x];
      assert items[..|items| - 1] == gs[0].items;
      assert r[1..] == gs[1..];
    } else if order == AscendingKeys && gs[0].key > key(x) {
      assert r[1..] == gs;
      assert Total([x]) == Total([]) + x.quantityMovement by { assert [x][..0] == []; }
    } else {
      InsertTotal(gs[1..], x, key, order);
      assert r[1..] == Insert(gs[1..], x, key, order);
    }
  }

  /** Grouping neither loses nor duplicates quantity: the buckets' totals add up to the rows' total. */
  lemma {:induction false} GroupTotal(xs: seq<Movement>, key: Movement -> int, order: KeyOrder)
    ensures BucketsTotal(Group(xs, key, order)) == Total(xs)
  {
    if |xs| > 0 {
      var init := xs[..|xs| - 1];
      GroupTotal(init, key, order);
      InsertTotal(Group(init, key, order), xs[|xs| - 1], key, order);
    }
  }
}

=== FILE: movement_queries.dfy ===
/**
 The read side of `InventoryMovementsController`: the latest row of every
 product of a company (`index`), a single row (`show`) and the current stock
 of a product in a warehouse (`getStock`).
 */
module MovementQueries {
  import opened Wrappers
  import opened Movements
  import Seqs
  import Grouping
  import BalanceEngine

  /** The rows a company's default query sees: live rows of that company. */
  function CompanyRows(rows: Ledger, c: int): (r: Ledger)
    ensures forall m :: m in r <==> m in rows && Live(m) && m.companyId == c
  {
    Seqs.Filter(rows, (m: Movement) => Live(m) && m.companyId == c)
  }

  /** The `MAX(id)` row of one product among a company's live rows. */
  function LatestOfProduct(rows: Ledger, c: int, p: int): (r: Option<Movement>)
    ensures r.None? <==> !exists m :: m in rows && Live(m) && m.companyId == c && m.productId == p
    ensures r.Some? ==> && r.value in rows && Live(r.value) && r.value.companyId == c && r.value.productId == p
                        && forall m :: m in rows && Live(m) && m.companyId == c && m.productId == p ==> m.id <= r.value.id
  {
    var xs := Grouping.Select(CompanyRows(rows, c), ProductOf, p);
    var r := Newest(xs, ById);
    assert r.Some? ==> forall m :: m in xs ==> m.id <= r.value.id by {
      if r.Some? {
        forall m | m in xs ensures m.id <= r.value.id {
          var i :| 0 <= i < |xs| && xs[i] == m;
        }
      }
    }
    assert r.None? ==> forall m :: m in rows && Live(m) && m.companyId == c && m.productId == p ==> m in xs by { }
    r
  }

  predicate ProductAscending(xs: seq<Movement>) {
    forall i, j :: 0 <= i < j < |xs| ==> xs[i].productId < xs[j].productId
  }

  /**
   The `MAX(id)` row of each bucket, in bucket order: a row of that bucket
   whose id no other row of the bucket exceeds, the one `Newest` picks.
   */
  function Heads(gs: seq<Grouping.Bucket>): (r: seq<Movement>)
    requires Grouping.NonEmptyBuckets(gs)
    ensures |r| == |gs|
    ensures forall i :: 0 <= i < |gs| ==> r[i] in gs[i].items
    ensures forall i, m :: 0 <= i < |gs| && m in gs[i].items ==> m.id <= r[i].id
    ensures forall i :: 0 <= i < |gs| ==> Some(r[i]) == Newest(gs[i].items, ById)
  {
    var r := seq(|gs|, i requires 0 <= i < |gs| => Newest(gs[i].items, ById).value);
    assert forall i, m :: 0 <= i < |gs| && m in gs[i].items ==> m.id <= r[i].id by {
      forall i, m | 0 <= i < |gs| && m in gs[i].items ensures m.id <= r[i].id {
        var j :| 0 <= j < |gs[i].items| && gs[i].items[j] == m;
      }
    }
    r
  }

  /** The latest live row of each product of the company, ordered by product. */
  function ProductHeads(rows: Ledger, c: int): seq<Movement> {
    Heads(Grouping.Group(CompanyRows(rows, c), ProductOf, Grouping.AscendingKeys))
  }

  /** The per-product heads are ascending by product, each the latest row of its product, and complete. */
  lemma ProductHeadsSpec(rows: Ledger, c: int)
    ensures ProductAscending(ProductHeads(rows, c))
    ensures forall j :: 0 <= j < |ProductHeads(rows, c)| ==>
              LatestOfProduct(rows, c, ProductHeads(rows, c)[j].productId) == Some(ProductHeads(rows, c)[j])
    ensures forall p :: LatestOfProduct(rows, c, p).Some? ==> LatestOfProduct(rows, c, p).value in ProductHeads(rows, c)
  {
    var live := CompanyRows(rows, c);
    var gs := Grouping.Group(live, ProductOf, Grouping.AscendingKeys);
    var hs := ProductHeads(rows, c);
    forall i | 0 <= i < |gs| ensures hs[i].productId == gs[i].key && LatestOfProduct(rows, c, gs[i].key) == Some(hs[i]) {
      Grouping.GroupBuckets(live, ProductOf, Grouping.AscendingKeys, i);
      assert hs[i] in gs[i].items;
    }
    forall p | LatestOfProduct(rows, c, p).Some? ensures LatestOfProduct(rows, c, p).value in hs {
      var m := LatestOfProduct(rows, c, p).value;
      assert m in live;
      Grouping.GroupCovers(live, ProductOf, Grouping.AscendingKeys, m);
      var i :| 0 <= i < |gs| && gs[i].key == p;
      assert hs[i] == m;
    }
  }

  /** Selecting rows keeps them in ascending product order. */
  lemma FilterAscending(xs: seq<Movement>, keep: Movement -> bool)
    requires ProductAscending(xs)
    ensures ProductAscending(Seqs.Filter(xs, keep))
  {
    Seqs.FilterKeepsOrder(xs, keep, (a: Movement, b: Movement) => a.productId < b.productId);
  }

  /** Rows that are each the latest of their product, ascending and complete: a search keeps all three. */
  lemma FilterHeads(rows: Ledger, c: int, hs: seq<Movement>, matches: Movement -> bool)
    requires ProductAscending(hs)
    requires forall j :: 0 <= j < |hs| ==> LatestOfProduct(rows, c, hs[j].productId) == Some(hs[j])
    requires forall p :: LatestOfProduct(rows, c, p).Some? ==> LatestOfProduct(rows, c, p).value in hs
    ensures var r := Seqs.Filter(hs, matches);
            && ProductAscending(r)
            && (forall j :: 0 <= j < |r| ==> matches(r[j]) && LatestOfProduct(rows, c, r[j].productId) == Some(r[j]))
            && (forall p :: LatestOfProduct(rows, c, p).Some? && matches(LatestOfProduct(rows, c, p).value) ==>
                  LatestOfProduct(rows, c, p).value in r)
  {
    FilterAscending(hs, matches);
    var r := Seqs.Filter(hs, matches);
    forall j | 0 <= j < |r| ensures LatestOfProduct(rows, c, r[j].productId) == Some(r[j]) {
      assert r[j] in hs;
      var k :| 0 <= k < |hs| && hs[k] == r[j];
    }
  }

  /** The per-product heads the search accepts keep their order, their meaning and their completeness. */
  lemma SelectedHeadsSpec(rows: Ledger, c: int, matches: Movement -> bool)
    ensures var r := Seqs.Filter(ProductHeads(rows, c), matches);
            && ProductAscending(r)
            && (forall j :: 0 <= j < |r| ==> matches(r[j]) && LatestOfProduct(rows, c, r[j].productId) == Some(r[j]))
            && (forall p :: LatestOfProduct(rows, c, p).Some? && matches(LatestOfProduct(rows, c, p).value) ==>
                  LatestOfProduct(rows, c, p).value in r)
  {
    ProductHeadsSpec(rows, c);
    FilterHeads(rows, c, ProductHeads(rows, c), matches);
  }

  /**
   `index`: the `MAX(id)` row of every product among the company's live rows,
   ordered by `product_id`, restricted to those the search (product name or
   notes) accepts.
   */
  function LatestPerProduct(rows: Ledger, c: int, matches: Movement -> bool): (r: seq<Movement>)
    ensures ProductAscending(r)
    ensures forall j :: 0 <= j < |r| ==>
              matches(r[j]) && LatestOfProduct(rows, c, r[j].productId) == Some(r[j])
    ensures forall p :: LatestOfProduct(rows, c, p).Some? && matches(LatestOfProduct(rows, c, p).value) ==>
              LatestOfProduct(rows, c, p).value in r
  {
    SelectedHeadsSpec(rows, c, matches);
    Seqs.Filter(ProductHeads(rows, c), matches)
  }

  /**
   `index` as the controller is written. The query eager-loads a relation
   named `moviment_type`, which the movement model does not define, so
   loading the rows of a non-empty listing throws and the catch answers 500.
   The answer is 200 exactly when no product's latest row is accepted by the
   search, and then the listing is empty.
   */
  function IndexAsWritten(rows: Ledger, c: int, matches: Movement -> bool): (r: Result<seq<Movement>, Failure>)
    ensures r.Ok? <==> forall p :: LatestOfProduct(rows, c, p).Some? ==> !matches(LatestOfProduct(rows, c, p).value)
    ensures r.Ok? ==> r.value == []
    ensures r.Err? ==> r.error == Internal
  {
    var listed := LatestPerProduct(rows, c, matches);
    assert listed != [] ==> LatestOfProduct(rows, c, listed[0].productId) == Some(listed[0]);
    if listed == [] then Ok([]) else Err(Internal)
  }

  /** One live row of the company, accepted by the search, already makes `index` answer 500. */
  lemma OneRowIs500(m: Movement, matches: Movement -> bool)
    requires Live(m) && matches(m)
    ensures IndexAsWritten([m], m.companyId, matches) == Err(Internal)
    ensures LatestPerProduct([m], m.companyId, matches) == [m]
  {
    var l := LatestOfProduct([m], m.companyId, m.productId);
    assert m in [m];
    assert l == Some(m);
    var r := LatestPerProduct([m], m.companyId, matches);
    assert m in r;
    assert forall x :: x in r ==> x == m;
  }

  /** `show`: the row with the given id, soft-deleted or not. */
  function Show(rows: Ledger, id: int): (r: Result<Movement, Failure>)
    ensures r.Ok? ==> r.value in rows && r.value.id == id
    ensures r.Err? <==> forall i :: 0 <= i < |rows| ==> rows[i].id != id
    ensures r.Err? ==> r.error == MovementMissing
  {
    match IndexOf(rows, id, true)
    case None => Err(MovementMissing)
    case Some(i) => Ok(rows[i])
  }

  /** The request of `getStock`. */
  datatype StockRequest = StockRequest(productId: Option<int>, warehouseId: Option<int>)

  /** The answer of `getStock`. */
  datatype StockReading = StockReading(productId: int, warehouseId: int, currentStock: real,
                                       lastMovement: Option<Movement>)

  const ActiveStatus: string := "active"

  /** Live rows of the pair whose `status` is "active" (any company). */
  function ActivePairRows(rows: Ledger, p: int, w: int): (r: Ledger)
    ensures forall m :: m in r <==> (m in rows && Live(m) && m.productId == p && m.warehouseId == w
                                   && m.status == Some(ActiveStatus))
  {
    Seqs.Filter(rows, (m: Movement) => Live(m) && m.productId == p && m.warehouseId == w
                                       && m.status == Some(ActiveStatus))
  }

  /**
   `getStock`: the `quantity_total` of the most recently created active row of
   the pair, or 0 when there is none; a missing or unknown id is a validation error.
   */
  function GetStock(rows: Ledger, cat: BalanceEngine.Catalogue, req: StockRequest): (r: Result<StockReading, Failure>)
    ensures r.Err? <==> !(req.productId.Some? && req.productId.value in cat.products
                          && req.warehouseId.Some? && req.warehouseId.value in cat.warehouses)
    ensures r.Err? ==> r.error == Validation
    ensures r.Ok? ==> Some(r.value.productId) == req.productId && Some(r.value.warehouseId) == req.warehouseId
    ensures r.Ok? ==>
              var p := r.value.productId;
              var w := r.value.warehouseId;
              (r.value.lastMovement.None? <==>
                 !exists m :: m in rows && Live(m) && m.productId == p && m.warehouseId == w
                              && m.status == Some(ActiveStatus))
    ensures r.Ok? && r.value.lastMovement.None? ==> r.value.currentStock == 0.0
    ensures r.Ok? && r.value.lastMovement.Some? ==>
              var last := r.value.lastMovement.value;
              && last in rows && Live(last) && last.status == Some(ActiveStatus)
              && last.productId == r.value.productId && last.warehouseId == r.value.warehouseId
              && r.value.currentStock == last.quantityTotal
              && forall m :: m in rows && Live(m) && m.productId == last.productId
                             && m.warehouseId == last.warehouseId && m.status == Some(ActiveStatus)
                             ==> m.createdAt <= last.createdAt
  {
    if !(req.productId.Some? && req.productId.value in cat.products
         && req.warehouseId.Some? && req.warehouseId.value in cat.warehouses) then
      Err(Validation)
    else
      var p := req.productId.value;
      var w := req.warehouseId.value;
      var xs := ActivePairRows(rows, p, w);
      var last := Newest(xs, ByCreation);
      assert last.Some? ==> forall m :: m in xs ==> m.createdAt <= last.value.createdAt by {
        if last.Some? {
          forall m | m in xs ensures m.createdAt <= last.value.createdAt {
            var i :| 0 <= i < |xs| && xs[i] == m;
          }
        }
      }
      Ok(StockReading(p, w, if last.Some? then last.value.quantityTotal else 0.0, last))
  }
}

=== FILE: movements.dfy ===
/**
 The inventory-movement ledger: one immutable row per stock movement, kept
 as an in-memory sequence in insertion order, with soft deletion as a flag.
 */
module Movements {
  import opened Wrappers
  import Seqs

  /** One row of the `inventory_movements` table. */
  datatype Movement = Movement(
    id: int,
    companyId: int,
    productId: int,
    warehouseId: int,
    movementType: int,          // id of a row of the `movement_type` table
    rentalId: Option<int>,
    saleId: Option<int>,
    quantityMovement: real,     // magnitude of this event
    quantityTotal: real,        // running balance of the pair after this event
    notes: Option<string>,
    status: Option<string>,
    createdAt: int,             // creation timestamp, as an abstract clock reading
    trashed: bool)              // `deleted_at` is set

  type Ledger = seq<Movement>

  /** The ways a ledger operation can fail, with the HTTP status the controllers answer. */
  datatype Failure =
    | Validation              // 422
    | MovementTypeMissing     // 404 "Movement type not found."
    | InsufficientBalance     // 404 "Insuficient Saldo!"
    | MovementMissing         // 404 "Inventory movement not found."
    | NotDeleted              // 400 "Inventory movement is not deleted."
    | NoCompany               // 400 caller without a company
    | Internal                // 500 exception caught by the controller

  /** Every id in the ledger is distinct. */
  ghost predicate UniqueIds(rows: Ledger) {
    forall i, j :: 0 <= i < |rows| && 0 <= j < |rows| && i != j ==> rows[i].id != rows[j].id
  }

  /** Every row, live or trashed, carries a non-negative running total. */
  ghost predicate NonNegative(rows: Ledger) {
    forall i :: 0 <= i < |rows| ==> rows[i].quantityTotal >= 0.0
  }

  /** The order a query sorts by, descending, before taking its first row. */
  datatype Order = ById | ByCreation

  function Rank(r: Movement, o: Order): int {
    match o
    case ById => r.id
    case ByCreation => r.createdAt
  }

  /**
   The row a query `orderBy(.., 'desc')->first()` returns: one of highest rank,
   the earliest such row in the ledger when several share it.
   */
  function Newest(rows: Ledger, o: Order): (r: Option<Movement>)
    ensures r.None? <==> |rows| == 0
    ensures r.Some? ==> r.value in rows
    ensures r.Some? ==> forall i :: 0 <= i < |rows| ==> Rank(rows[i], o) <= Rank(r.value, o)
  {
    if |rows| == 0 then None
    else
      var last := rows[|rows| - 1];
      match Newest(rows[..|rows| - 1], o)
      case None => Some(last)
      case Some(m) => if Rank(last, o) > Rank(m, o) then Some(last) else Some(m)
  }

  /** A row ranked strictly above every earlier row becomes the newest one. */
  lemma NewestAppend(rows: Ledger, m: Movement, o: Order)
    requires forall i :: 0 <= i < |rows| ==> Rank(rows[i], o) < Rank(m, o)
    ensures Newest(rows + [m], o) == Some(m)
  {
    assert (rows + [m])[..|rows|] == rows;
  }

  /** The grouping columns of a row. */
  function ProductOf(m: Movement): int {
    m.productId
  }

  function WarehouseOf(m: Movement): int {
    m.warehouseId
  }

  /** The rows a default (soft-delete scoped) query sees. */
  predicate Live(r: Movement) {
    !r.trashed
  }

  /**
   The rows `InventoryMovementsModel::where('product_id', p)->where('warehouse_id', w)`
   reads: not trashed, same product and warehouse, any company.
   */
  function PairRows(rows: Ledger, p: int, w: int): (r: Ledger)
    ensures forall m :: m in r <==> m in rows && Live(m) && m.productId == p && m.warehouseId == w
  {
    Seqs.Filter(rows, (m: Movement) => Live(m) && m.productId == p && m.warehouseId == w)
  }

  lemma PairRowsAppend(rows: Ledger, m: Movement, p: int, w: int)
    ensures PairRows(rows + [m], p, w)
         == PairRows(rows, p, w) + (if Live(m) && m.productId == p && m.warehouseId == w then [m] else [])
  {
    Seqs.FilterAppend(rows, m, (m: Movement) => Live(m) && m.productId == p && m.warehouseId == w);
  }

  /**
   The running balance of a (product, warehouse) pair: the `quantity_total` of
   its highest-id live row, or 0 when it has none.
   */
  function Balance(rows: Ledger, p: int, w: int): (b: real)
    ensures !(exists m :: m in rows && Live(m) && m.productId == p && m.warehouseId == w) ==> b == 0.0
    ensures (exists m :: m in rows && Live(m) && m.productId == p && m.warehouseId == w) ==>
              exists m :: m in rows && Live(m) && m.productId == p && m.warehouseId == w && b == m.quantityTotal
                && forall k :: k in rows && Live(k) && k.productId == p && k.warehouseId == w ==> k.id <= m.id
  {
    var pair := PairRows(rows, p, w);
    match Newest(pair, ById)
    case None => 0.0
    case Some(m) =>
      forall k | k in pair ensures k.id <= m.id {
        var i :| 0 <= i < |pair| && pair[i] == k;
      }
      m.quantityTotal
  }

  /** The auto-increment id the next inserted row receives: above every id present. */
  function NextId(rows: Ledger): (n: int)
    ensures n >= 1
    ensures forall i :: 0 <= i < |rows| ==> rows[i].id < n
  {
    if |rows| == 0 then 1
    else
      var n := NextId(rows[..|rows| - 1]);
      var last := rows[|rows| - 1].id;
      if last + 1 > n then last + 1 else n
  }

  /** The row with a given id, if any (Eloquent `find`, optionally `withTrashed`). */
  function IndexOf(rows: Ledger, id: int, withTrashed: bool): (r: Option<nat>)
    ensures r.Some? ==> r.value < |rows| && rows[r.value].id == id && (withTrashed || Live(rows[r.value]))
    ensures r.Some? ==> forall i :: 0 <= i < r.value ==> !(rows[i].id == id && (withTrashed || Live(rows[i])))
    ensures r.None? <==> forall i :: 0 <= i < |rows| ==> !(rows[i].id == id && (withTrashed || Live(rows[i])))
  {
    if |rows| == 0 then None
    else if rows[0].id == id && (withTrashed || Live(rows[0])) then Some(0)
    else
      match IndexOf(rows[1..], id, withTrashed)
      case None => None
      case Some(i) => Some(i + 1)
  }
}

=== FILE: partners.dfy ===
/**
 The partner helpers of `PartnerModel`: the label of a partner type, the
 active/inactive predicates on its nullable boolean `status`, and the query
 scopes as list filters.
 */
module Partners {
  import opened Wrappers
  import Seqs

  /** One row of the `partners` table; `status` is cast to a boolean and may be NULL. */
  datatype Partner = Partner(
    id: int,
    name: string,
    taxId: Option<string>,
    partnerType: string,
    companyId: int,
    status: Option<bool>,
    note: Option<string>)

  /** `isActive`: `status === true`; the strict comparison makes a NULL status not active. */
  predicate IsActive(p: Partner)
    ensures IsActive(p) ==> p.status.Some? && p.status.value
    ensures p.status.None? ==> !IsActive(p)
  {
    p.status == Some(true)
  }

  /** `isInactive`: `status === false`; a NULL status is not inactive either. */
  predicate IsInactive(p: Partner)
    ensures IsInactive(p) ==> p.status.Some? && !p.status.value
    ensures p.status.None? ==> !IsInactive(p)
  {
    p.status == Some(false)
  }

  /** A partner is never both active and inactive; one with a NULL status is neither. */
  lemma ActiveInactiveExclusive(p: Partner)
    ensures !(IsActive(p) && IsInactive(p))
    ensures (IsActive(p) || IsInactive(p)) <==> p.status.Some?
  {
    if p.status.Some? {
      if p.status.value { } else { }
    }
  }

  /** PHP `ucfirst`: an ASCII lower-case first letter is upper-cased, everything else is kept. */
  function UpperFirst(s: string): (r: string)
    ensures |r| == |s|
    ensures |s| > 0 ==> r[1..] == s[1..]
    ensures |s| > 0 && 'a' <= s[0] <= 'z' ==> 'A' <= r[0] <= 'Z' && r[0] as int == s[0] as int - 32
    ensures |s| == 0 || !('a' <= s[0] <= 'z') ==> r == s
  {
    if |s| > 0 && 'a' <= s[0] <= 'z' then [(s[0] as int - 32) as char] + s[1..] else s
  }

  /** The fixed labels of the five partner types the application knows. */
  const Labels: map<string, string> := map[
    "customer" := "Customer",
    "supplier" := "Supplier",
    "distributor" := "Distributor",
    "reseller" := "Reseller",
    "partner" := "Partner"]

  /**
   `getPartnerTypeLabel`: a known type's fixed label, any other type with its
   first letter upper-cased. Every fixed label is itself the upper-cased
   type, so the label is always `ucfirst` of the type.
   */
  function TypeLabel(partnerType: string): (r: string)
    ensures partnerType in Labels ==> r == Labels[partnerType]
    ensures r == UpperFirst(partnerType)
  {
    if partnerType in Labels then
      assert Labels[partnerType] == UpperFirst(partnerType) by { KnownLabels(partnerType); }
      Labels[partnerType]
    else UpperFirst(partnerType)
  }

  lemma KnownLabels(t: string)
    requires t in Labels
    ensures Labels[t] == UpperFirst(t)
  {
    assert t in {"customer", "supplier", "distributor", "reseller", "partner"};
    if t == "customer" {
      assert UpperFirst(t) == ['C'] + "ustomer";
    } else if t == "supplier" {
      assert UpperFirst(t) == ['S'] + "upplier";
    } else if t == "distributor" {
      assert UpperFirst(t) == ['D'] + "istributor";
    } else if t == "reseller" {
      assert UpperFirst(t) == ['R'] + "eseller";
    } else {
      assert UpperFirst(t) == ['P'] + "artner";
    }
  }

  /** `scopeActive`: the partners whose status is true, each as often as it occurs. */
  function ScopeActive(ps: seq<Partner>): (r: seq<Partner>)
    ensures forall p :: p in r <==> p in ps && p.status == Some(true)
    ensures forall p :: multiset(r)[p] == if IsActive(p) then multiset(ps)[p] else 0
  {
    Seqs.FilterCount(ps, IsActive);
    Seqs.Filter(ps, IsActive)
  }

  /** `scopeInactive`: the partners whose status is false, each as often as it occurs. */
  function ScopeInactive(ps: seq<Partner>): (r: seq<Partner>)
    ensures forall p :: p in r <==> p in ps && p.status == Some(false)
    ensures forall p :: multiset(r)[p] == if IsInactive(p) then multiset(ps)[p] else 0
  {
    Seqs.FilterCount(ps, IsInactive);
    Seqs.Filter(ps, IsInactive)
  }

  /** `scopeByType`: the partners of the given type, each as often as it occurs. */
  function ScopeByType(ps: seq<Partner>, t: string): (r: seq<Partner>)
    ensures forall p :: p in r <==> p in ps && p.partnerType == t
    ensures forall p :: multiset(r)[p] == if p.partnerType == t then multiset(ps)[p] else 0
  {
    Seqs.FilterCount(ps, (p: Partner) => p.partnerType == t);
    Seqs.Filter(ps, (p: Partner) => p.partnerType == t)
  }

  /** `scopeByCompany`: the partners of the given company, each as often as it occurs. */
  function ScopeByCompany(ps: seq<Partner>, c: int): (r: seq<Partner>)
    ensures forall p :: p in r <==> p in ps && p.companyId == c
    ensures forall p :: multiset(r)[p] == if p.companyId == c then multiset(ps)[p] else 0
  {
    Seqs.FilterCount(ps, (p: Partner) => p.companyId == c);
    Seqs.Filter(ps, (p: Partner) => p.companyId == c)
  }

  predicate HasNullStatus(p: Partner) {
    p.status.None?
  }

  function NullStatus(ps: seq<Partner>): seq<Partner> {
    Seqs.Filter(ps, HasNullStatus)
  }

  /** The active, the inactive and the NULL-status partners split the list between them. */
  lemma {:induction false} StatusPartition(ps: seq<Partner>)
    ensures |ScopeActive(ps)| + |ScopeInactive(ps)| + |NullStatus(ps)| == |ps|
  {
    if |ps| > 0 {
      var init := ps[..|ps| - 1];
      var last := ps[|ps| - 1];
      assert ps == init + [last];
      StatusPartition(init);
      Seqs.FilterAppend(init, last, IsActive);
      Seqs.FilterAppend(init, last, IsInactive);
      Seqs.FilterAppend(init, last, HasNullStatus);
      assert |ScopeActive(ps)| == |ScopeActive(init)| + (if IsActive(last) then 1 else 0);
      assert |ScopeInactive(ps)| == |ScopeInactive(init)| + (if IsInactive(last) then 1 else 0);
      assert |NullStatus(ps)| == |NullStatus(init)| + (if HasNullStatus(last) then 1 else 0);
      ActiveInactiveExclusive(last);
    }
  }
}

=== FILE: seqs.dfy ===
/** Order-preserving selection over sequences, the in-memory stand-in for a `where` clause. */
module Seqs {

  /** The elements of `xs` that satisfy `keep`, in their original order. */
  function Filter<T(!new)>(xs: seq<T>, keep: T -> bool): (r: seq<T>)
    ensures |r| <= |xs|
    ensures forall x :: x in r <==> x in xs && keep(x)
  {
    if |xs| == 0 then []
    else Filter(xs[..|xs| - 1], keep) + (if keep(xs[|xs| - 1]) then [xs[|xs| - 1]] else [])
  }

  /** Filtering keeps every selected element as often as it occurs, and drops the others entirely. */
  lemma {:induction false} FilterCount<T(!new)>(xs: seq<T>, keep: T -> bool)
    ensures forall x :: multiset(Filter(xs, keep))[x] == if keep(x) then multiset(xs)[x] else 0
  {
    if |xs| > 0 {
      var init := xs[..|xs| - 1];
      var last := xs[|xs| - 1];
      assert xs == init + [last];
      FilterCount(init, keep);
      assert multiset(xs) == multiset(init) + multiset{last};
      assert multiset(Filter(xs, keep))
          == multiset(Filter(init, keep)) + multiset(if keep(last) then [last] else []);
    }
  }

  /** Filtering an appended sequence filters the prefix and then the new element. */
  lemma FilterAppend<T(!new)>(xs: seq<T>, x: T, keep: T -> bool)
    ensures Filter(xs + [x], keep) == Filter(xs, keep) + (if keep(x) then [x] else [])
  {
    assert (xs + [x])[..|xs|] == xs;
  }

  /** Selecting elements keeps any strict order the sequence had. */
  lemma {:induction false} FilterKeepsOrder<T(!new)>(xs: seq<T>, keep: T -> bool, less: (T, T) -> bool)
    requires forall i, j :: 0 <= i < j < |xs| ==> less(xs[i], xs[j])
    ensures var r := Filter(xs, keep);
            forall i, j :: 0 <= i < j < |r| ==> less(r[i], r[j])
  {
    if |xs| > 0 {
      var init := xs[..|xs| - 1];
      var last := xs[|xs| - 1];
      assert xs == init + [last];
      FilterKeepsOrder(init, keep, less);
      FilterAppend(init, last, keep);
      var f := Filter(init, keep);
      forall i | 0 <= i < |f| ensures less(f[i], last) {
        assert f[i] in init;
        var k :| 0 <= k < |init| && init[k] == f[i];
      }
    }
  }

  /** Selecting with a test every element passes returns the sequence itself. */
  lemma {:induction false} FilterAll<T(!new)>(xs: seq<T>, keep: T -> bool)
    requires forall x :: x in xs ==> keep(x)
    ensures Filter(xs, keep) == xs
  {
    if |xs| > 0 {
      var init := xs[..|xs| - 1];
      assert xs == init + [xs[|xs| - 1]];
      FilterAll(init, keep);
    }
  }
}

=== FILE: soft_delete.dfy ===
/**
 The soft-delete state machine of a ledger row (`destroy` and `restore` of
 `InventoryMovementsController`): a row is live or trashed, and each call
 flips exactly one row or fails without touching the ledger.
 */
module SoftDelete {
  import opened Wrappers
  import opened Movements

  /** The ledger after a call together with the call's answer (the affected row). */
  datatype Outcome = Outcome(ledger: Ledger, result: Result<Movement, Failure>)

  /** `after` is `before` with row `i` set to the given deletion state and nothing else changed. */
  ghost predicate MarkedAt(before: Ledger, after: Ledger, i: int, trashed: bool) {
    && |after| == |before| && 0 <= i < |before|
    && after[i] == before[i].(trashed := trashed)
    && forall j :: 0 <= j < |before| && j != i ==> after[j] == before[j]
  }

  /** `destroy`: soft-delete the live row with the given id; a missing or already trashed row is not found. */
  function Destroy(rows: Ledger, id: int): (o: Outcome)
    ensures o.result.Err? <==> forall i :: 0 <= i < |rows| ==> !(rows[i].id == id && Live(rows[i]))
    ensures o.result.Err? ==> o.result.error == MovementMissing && o.ledger == rows
    ensures o.result.Ok? ==>
              exists i :: 0 <= i < |rows| && rows[i].id == id && Live(rows[i])
                          && MarkedAt(rows, o.ledger, i, true) && o.result.value == o.ledger[i]
  {
    match IndexOf(rows, id, false)
    case None => Outcome(rows, Err(MovementMissing))
    case Some(i) =>
      var after := rows[i := rows[i].(trashed := true)];
      assert MarkedAt(rows, after, i, true);
      Outcome(after, Ok(after[i]))
  }

  /**
   `restore`: undelete the row with the given id; a missing row is not found,
   a row that is not trashed is refused.
   */
  function Restore(rows: Ledger, id: int): (o: Outcome)
    ensures o.result == Err(MovementMissing) <==> forall i :: 0 <= i < |rows| ==> rows[i].id != id
    ensures o.result == Err(NotDeleted) ==> exists i :: 0 <= i < |rows| && rows[i].id == id && Live(rows[i])
    ensures UniqueIds(rows) ==>
              (o.result == Err(NotDeleted) <==> exists i :: 0 <= i < |rows| && rows[i].id == id && Live(rows[i]))
    ensures o.result.Err? ==> o.ledger == rows && o.result.error in {MovementMissing, NotDeleted}
    ensures o.result.Ok? ==>
              exists i :: 0 <= i < |rows| && rows[i].id == id && rows[i].trashed
                          && MarkedAt(rows, o.ledger, i, false) && o.result.value == o.ledger[i]
  {
    match IndexOf(rows, id, true)
    case None => Outcome(rows, Err(MovementMissing))
    case Some(i) =>
      if Live(rows[i]) then Outcome(rows, Err(NotDeleted))
      else
        var after := rows[i := rows[i].(trashed := false)];
        assert MarkedAt(rows, after, i, false);
        Outcome(after, Ok(after[i]))
  }

  /** Marking one row keeps every id where it was. */
  lemma MarkedKeepsIds(before: Ledger, after: Ledger, i: int, t: bool)
    requires MarkedAt(before, after, i, t)
    ensures forall j :: 0 <= j < |after| ==> after[j].id == before[j].id
    ensures UniqueIds(before) ==> UniqueIds(after)
  {
  }

  /** Restoring a row right after destroying it gives back the ledger it started from. */
  lemma DestroyThenRestore(rows: Ledger, id: int)
    requires UniqueIds(rows) && Destroy(rows, id).result.Ok?
    ensures Restore(Destroy(rows, id).ledger, id).result.Ok?
    ensures Restore(Destroy(rows, id).ledger, id).ledger == rows
  {
    var d := Destroy(rows, id).ledger;
    var i :| 0 <= i < |rows| && rows[i].id == id && Live(rows[i]) && MarkedAt(rows, d, i, true);
    MarkedKeepsIds(rows, d, i, true);
    var o := Restore(d, id);
    var k :| 0 <= k < |d| && d[k].id == id && d[k].trashed && MarkedAt(d, o.ledger, k, false);
    assert k == i;
    assert o.ledger == rows;
  }

  /** Destroying a row right after restoring it gives back the ledger it started from. */
  lemma RestoreThenDestroy(rows: Ledger, id: int)
    requires UniqueIds(rows) && Restore(rows, id).result.Ok?
    ensures Destroy(Restore(rows, id).ledger, id).result.Ok?
    ensures Destroy(Restore(rows, id).ledger, id).ledger == rows
  {
    var r := Restore(rows, id).ledger;
    var i :| 0 <= i < |rows| && rows[i].id == id && rows[i].trashed && MarkedAt(rows, r, i, false);
    MarkedKeepsIds(rows, r, i, false);
    var o := Destroy(r, id);
    assert r[i].id == id && Live(r[i]);
    var k :| 0 <= k < |r| && r[k].id == id && Live(r[k]) && MarkedAt(r, o.ledger, k, true);
    assert k == i;
    assert o.ledger == rows;
  }

  /** A second `destroy` of the same row is not found, and a second `restore` is refused. */
  lemma NoDoubleTransitions(rows: Ledger, id: int)
    requires UniqueIds(rows)
    ensures Destroy(rows, id).result.Ok? ==> Destroy(Destroy(rows, id).ledger, id).result == Err(MovementMissing)
    ensures Restore(rows, id).result.Ok? ==> Restore(Restore(rows, id).ledger, id).result == Err(NotDeleted)
  {
    if Destroy(rows, id).result.Ok? {
      var d := Destroy(rows, id).ledger;
      var i :| 0 <= i < |rows| && rows[i].id == id && Live(rows[i]) && MarkedAt(rows, d, i, true);
      forall j | 0 <= j < |d| ensures !(d[j].id == id && Live(d[j])) {
        if j != i { assert rows[j].id != rows[i].id; }
      }
    }
    if Restore(rows, id).result.Ok? {
      var r := Restore(rows, id).ledger;
      var i :| 0 <= i < |rows| && rows[i].id == id && rows[i].trashed && MarkedAt(rows, r, i, false);
      MarkedKeepsIds(rows, r, i, false);
      assert r[i].id == id && Live(r[i]);
    }
  }

  /** Neither call changes any row's quantities: no running total is recomputed. */
  lemma TotalsUntouched(rows: Ledger, id: int)
    ensures var d := Destroy(rows, id).ledger;
            |d| == |rows| && forall j :: 0 <= j < |rows| ==>
              d[j].quantityTotal == rows[j].quantityTotal && d[j].quantityMovement == rows[j].quantityMovement
    ensures var r := Restore(rows, id).ledger;
            |r| == |rows| && forall j :: 0 <= j < |rows| ==>
              r[j].quantityTotal == rows[j].quantityTotal && r[j].quantityMovement == rows[j].quantityMovement
  {
    if Destroy(rows, id).result.Ok? {
      var d := Destroy(rows, id).ledger;
      var i :| 0 <= i < |rows| && rows[i].id == id && Live(rows[i]) && MarkedAt(rows, d, i, true);
    }
    if Restore(rows, id).result.Ok? {
      var r := Restore(rows, id).ledger;
      var i :| 0 <= i < |rows| && rows[i].id == id && rows[i].trashed && MarkedAt(rows, r, i, false);
    }
  }

  /** Destroy and restore keep both ledger invariants: distinct ids and non-negative totals. */
  lemma SoftDeleteKeepsInvariants(rows: Ledger, id: int)
    ensures UniqueIds(rows) ==> UniqueIds(Destroy(rows, id).ledger) && UniqueIds(Restore(rows, id).ledger)
    ensures NonNegative(rows) ==> NonNegative(Destroy(rows, id).ledger) && NonNegative(Restore(rows, id).ledger)
  {
    TotalsUntouched(rows, id);
    if Destroy(rows, id).result.Ok? {
      var i :| 0 <= i < |rows| && rows[i].id == id && Live(rows[i]) && MarkedAt(rows, Destroy(rows, id).ledger, i, true);
      MarkedKeepsIds(rows, Destroy(rows, id).ledger, i, true);
    }
    if Restore(rows, id).result.Ok? {
      var i :| 0 <= i < |rows| && rows[i].id == id && rows[i].trashed && MarkedAt(rows, Restore(rows, id).ledger, i, false);
      MarkedKeepsIds(rows, Restore(rows, id).ledger, i, false);
    }
  }
}

=== FILE: stock_aggregator.dfy ===
/**
 The stock aggregator (`InventoryController::index`): reduce a company's
 ledger rows to one summary per product, split per warehouse, keep the
 products below an optional threshold, and cut one page out of the result.
 */
module StockAggregator {
  import opened Wrappers
  import opened Movements
  import Seqs
  import opened Grouping

  const DefaultLimit: int := 25
  const DefaultPage: int := 1

  /** The `quantity_below` parameter: its text and the number PHP reads from it. */
  datatype Threshold = Threshold(text: string, value: real)

  /** The `product_id` parameter: its text and the integer the database compares `product_id` with. */
  datatype ProductParam = ProductParam(text: string, value: int)

  /**
   The query of `GET /inventory`; `None` when a parameter is absent. `limit`
   and `page` are their `(int)` readings.
   */
  datatype StockQuery = StockQuery(
    companyId: Option<int>,       // the caller's company
    limit: Option<int>,
    page: Option<int>,
    productId: Option<ProductParam>,
    quantityBelow: Option<Threshold>)

  /** One entry of `quantity_per_warehouses`, identified by the `warehouse_id` of its rows. */
  datatype WarehouseStock = WarehouseStock(warehouseId: int, quantity: real)

  /** One product's summary: the id of its first row, its quantity and its per-warehouse split. */
  datatype StockGroup = StockGroup(id: int, productId: int, quantity: real, perWarehouse: seq<WarehouseStock>)

  /** The response: one page of summaries and the pagination block. */
  datatype StockPage = StockPage(data: seq<StockGroup>, page: int, limit: int, pageCount: int, totalCount: int)

  /** PHP `empty()` on a query string: absent, "" or "0". */
  predicate EmptyText(t: string) {
    t == "" || t == "0"
  }

  /** `$user->company_id` is truthy. */
  predicate HasCompany(c: Option<int>) {
    c.Some? && c.value != 0
  }

  function EffectiveLimit(q: StockQuery): int {
    match q.limit
    case None => DefaultLimit
    case Some(l) => l
  }

  function EffectivePage(q: StockQuery): int {
    match q.page
    case None => DefaultPage
    case Some(p) => p
  }

  /** `!empty($productId)`: the product filter applies, decided on the text. */
  predicate ProductFilterOn(pf: Option<ProductParam>) {
    pf.Some? && !EmptyText(pf.value.text)
  }

  /** The rows the query reads: the company's live rows, of the requested product, that the search accepts. */
  function Fetch(rows: Ledger, c: int, pf: Option<ProductParam>, matches: Movement -> bool): (r: Ledger)
    ensures forall m :: m in r <==>
              (m in rows && Live(m) && m.companyId == c && (ProductFilterOn(pf) ==> m.productId == pf.value.value) && matches(m))
  {
    Seqs.Filter(rows, (m: Movement) => Live(m) && m.companyId == c
                                      && (ProductFilterOn(pf) ==> m.productId == pf.value.value) && matches(m))
  }

  /**
   A `product_id` text that is not PHP-empty but reads as 0 (such as "00" or
   "abc") switches the filter on, so only rows of product 0 are read.
   */
  lemma ZeroTextFilters(rows: Ledger, c: int, text: string, matches: Movement -> bool)
    requires text != "" && text != "0"
    ensures ProductFilterOn(Some(ProductParam(text, 0)))
    ensures forall m :: m in Fetch(rows, c, Some(ProductParam(text, 0)), matches) ==> m.productId == 0
  {
  }

  /**
   The per-warehouse split of one product's rows: an entry per warehouse
   bucket, carrying that warehouse and the sum of its rows, so the entries
   add up to the sum of all the buckets.
   */
  function Warehouses(gs: seq<Bucket>): (ws: seq<WarehouseStock>)
    ensures |ws| == |gs|
    ensures forall i :: 0 <= i < |gs| ==> ws[i].warehouseId == gs[i].key && ws[i].quantity == Total(gs[i].items)
    ensures WarehousesTotal(ws) == BucketsTotal(gs)
  {
    if |gs| == 0 then []
    else
      var rest := Warehouses(gs[1..]);
      var ws := [WarehouseStock(gs[0].key, Total(gs[0].items))] + rest;
      assert ws[1..] == rest;
      ws
  }

  /** The sum of the per-warehouse quantities. */
  function WarehousesTotal(ws: seq<WarehouseStock>): real {
    if |ws| == 0 then 0.0 else ws[0].quantity + WarehousesTotal(ws[1..])
  }

  /** The warehouse entries of some rows: one per warehouse among them, each summing its rows. */
  lemma WarehouseSplit(items: seq<Movement>)
    ensures var ws := Warehouses(Group(items, WarehouseOf, FirstSeen));
            && WarehousesTotal(ws) == Total(items)
            && (forall k :: 0 <= k < |ws| ==> ws[k].quantity == Total(Select(items, WarehouseOf, ws[k].warehouseId)))
            && (forall k, l :: 0 <= k < l < |ws| ==> ws[k].warehouseId != ws[l].warehouseId)
            && (forall m :: m in items ==> exists k :: 0 <= k < |ws| && ws[k].warehouseId == m.warehouseId)
  {
    var gs := Group(items, WarehouseOf, FirstSeen);
    var ws := Warehouses(gs);
    GroupTotal(items, WarehouseOf, FirstSeen);
    forall k | 0 <= k < |ws| ensures ws[k].quantity == Total(Select(items, WarehouseOf, ws[k].warehouseId)) {
      GroupBuckets(items, WarehouseOf, FirstSeen, k);
    }
    forall m | m in items ensures exists k :: 0 <= k < |ws| && ws[k].warehouseId == m.warehouseId {
      GroupCovers(items, WarehouseOf, FirstSeen, m);
      var k :| 0 <= k < |gs| && gs[k].key == m.warehouseId;
      assert ws[k].warehouseId == m.warehouseId;
    }
  }

  /**
   The summary of one product's bucket. Its quantity sums the rows whatever
   their direction and equals the sum of its per-warehouse entries; there is
   exactly one entry for each warehouse among the rows, summing that
   warehouse's rows.
   */
  function Summarize(b: Bucket): (s: StockGroup)
    requires |b.items| > 0
    ensures s.productId == b.key && s.id == b.items[0].id
    ensures s.quantity == Total(b.items) && s.quantity == WarehousesTotal(s.perWarehouse)
    ensures forall k :: 0 <= k < |s.perWarehouse| ==>
              s.perWarehouse[k].quantity == Total(Select(b.items, WarehouseOf, s.perWarehouse[k].warehouseId))
    ensures forall k, l :: 0 <= k < l < |s.perWarehouse| ==>
              s.perWarehouse[k].warehouseId != s.perWarehouse[l].warehouseId
    ensures forall m :: m in b.items ==>
              exists k :: 0 <= k < |s.perWarehouse| && s.perWarehouse[k].warehouseId == m.warehouseId
  {
    WarehouseSplit(b.items);
    StockGroup(b.items[0].id, b.key, Total(b.items), Warehouses(Group(b.items, WarehouseOf, FirstSeen)))
  }

  /** One summary per product of the fetched rows, by ascending product. */
  function Summaries(gs: seq<Bucket>): (r: seq<StockGroup>)
    requires NonEmptyBuckets(gs)
    ensures |r| == |gs|
    ensures forall i :: 0 <= i < |gs| ==> r[i] == Summarize(gs[i])
  {
    seq(|gs|, i requires 0 <= i < |gs| => Summarize(gs[i]))
  }

  /** The product buckets of the fetched rows. */
  function ProductBuckets(rows: Ledger, c: int, pf: Option<ProductParam>, matches: Movement -> bool): seq<Bucket> {
    Group(Fetch(rows, c, pf, matches), ProductOf, AscendingKeys)
  }

  function Groups(rows: Ledger, c: int, pf: Option<ProductParam>, matches: Movement -> bool): seq<StockGroup> {
    Summaries(ProductBuckets(rows, c, pf, matches))
  }

  /** The `quantity_below` test: strict, and passed by every group when the parameter is empty. */
  predicate Below(t: Option<Threshold>, g: StockGroup) {
    t.None? || EmptyText(t.value.text) || g.quantity < t.value.value
  }

  /** The summaries that pass the `quantity_below` test, in their order. */
  function FilterBelow(gs: seq<StockGroup>, t: Option<Threshold>): (r: seq<StockGroup>)
    ensures |r| <= |gs|
    ensures forall g :: g in r <==> g in gs && Below(t, g)
  {
    Seqs.Filter(gs, (g: StockGroup) => Below(t, g))
  }

  /** The summaries that survive the threshold filter, still by ascending product. */
  function Kept(rows: Ledger, q: StockQuery, matches: Movement -> bool): seq<StockGroup>
    requires HasCompany(q.companyId)
  {
    FilterBelow(Groups(rows, q.companyId.value, q.productId, matches), q.quantityBelow)
  }

  /**
   `array_slice($xs, $offset, $length)` for a positive length: start at
   `offset`, or that far from the end when it is negative (clamped to the
   front), and take at most `length` elements.
   */
  function PhpSlice<T>(xs: seq<T>, offset: int, length: int): (r: seq<T>)
    requires length > 0
    ensures |r| <= length
    ensures var start := if offset >= 0 then offset else if |xs| + offset > 0 then |xs| + offset else 0;
            && (start >= |xs| <==> r == [])
            && (start < |xs| ==> |r| == if start + length <= |xs| then length else |xs| - start)
            && (forall i :: 0 <= i < |r| ==> start + i < |xs| && r[i] == xs[start + i])
            && (start < |xs| ==> r == xs[start..start + |r|])
  {
    var start := if offset >= 0 then offset else if |xs| + offset > 0 then |xs| + offset else 0;
    if start >= |xs| then []
    else xs[start..if start + length <= |xs| then start + length else |xs|]
  }

  /** The index of the first element of a page: `($page - 1) * $limit`. */
  function Offset(page: int, limit: int): int {
    (page - 1) * limit
  }

  /** `ceil(a / b)` for a positive divisor: the fewest pages of `b` items that hold `a` items. */
  function CeilDiv(a: nat, b: int): (r: nat)
    requires b > 0
    ensures r * b >= a
    ensures r == 0 || (r - 1) * b < a
  {
    if a == 0 then 0 else (a - 1) / b + 1
  }

  lemma MulMono(a: int, b: int, k: int)
    requires 0 <= a <= b && k > 0
    ensures a * k <= b * k
  {
  }

  /** A page from 1 on starts inside a list of `n` exactly when it is at most the page count. */
  lemma PageStart(n: nat, page: int, limit: int)
    requires limit > 0 && page >= 1
    ensures Offset(page, limit) < n <==> page <= CeilDiv(n, limit)
  {
    var c := CeilDiv(n, limit);
    if page <= c {
      MulMono(page - 1, c - 1, limit);
    } else {
      MulMono(c, page - 1, limit);
    }
  }

  /** The slice taken for a page from 1 on, in terms of the page count. */
  lemma SliceOfPage(kept: seq<StockGroup>, page: int, limit: int)
    requires limit > 0
    ensures page >= 1 ==> Offset(page, limit) >= 0
    ensures page >= 1 ==> (Offset(page, limit) >= |kept| <==> PhpSlice(kept, Offset(page, limit), limit) == [])
    ensures page >= 1 && Offset(page, limit) < |kept| ==>
              |PhpSlice(kept, Offset(page, limit), limit)| ==
                if Offset(page, limit) + limit <= |kept| then limit else |kept| - Offset(page, limit)
    ensures page >= 1 && Offset(page, limit) < |kept| ==>
              PhpSlice(kept, Offset(page, limit), limit) ==
                kept[Offset(page, limit)..Offset(page, limit) + |PhpSlice(kept, Offset(page, limit), limit)|]
    ensures page >= 1 ==> (PhpSlice(kept, Offset(page, limit), limit) != [] <==> page <= CeilDiv(|kept|, limit))
    ensures page < 1 ==>
              var s := if |kept| + Offset(page, limit) > 0 then |kept| + Offset(page, limit) else 0;
              PhpSlice(kept, Offset(page, limit), limit) == kept[s..if s + limit <= |kept| then s + limit else |kept|]
  {
    if page < 1 {
      MulMono(1, 1 - page, limit);
      assert Offset(page, limit) == -((1 - page) * limit);
    }
    if page >= 1 {
      MulMono(0, page - 1, limit);
      PageStart(|kept|, page, limit);
    }
  }

  /**
   One page of `limit` summaries with its pagination block. `page_count` is
   the least number of pages that holds every summary. A page from 1 on holds
   the consecutive summaries starting at (page - 1) * limit: a full page while
   enough remain, the remainder at the end, none once the offset reaches the
   total, so it is non-empty exactly when it is at most the page count.
   */
  function Paginate(kept: seq<StockGroup>, page: int, limit: int): (pg: StockPage)
    requires limit > 0
    ensures pg.page == page && pg.limit == limit && pg.totalCount == |kept|
    ensures pg.pageCount * limit >= |kept| && (pg.pageCount == 0 || (pg.pageCount - 1) * limit < |kept|)
    ensures |pg.data| <= limit
    ensures page >= 1 ==> Offset(page, limit) >= 0
    ensures page >= 1 ==> (Offset(page, limit) >= |kept| <==> pg.data == [])
    ensures page >= 1 && Offset(page, limit) < |kept| ==>
              |pg.data| == if Offset(page, limit) + limit <= |kept| then limit else |kept| - Offset(page, limit)
    ensures page >= 1 && Offset(page, limit) < |kept| ==>
              pg.data == kept[Offset(page, limit)..Offset(page, limit) + |pg.data|]
    ensures page >= 1 ==> (pg.data != [] <==> page <= pg.pageCount)
    ensures page < 1 ==>
              var s := if |kept| + Offset(page, limit) > 0 then |kept| + Offset(page, limit) else 0;
              pg.data == kept[s..if s + limit <= |kept| then s + limit else |kept|]
  {
    SliceOfPage(kept, page, limit);
    StockPage(PhpSlice(kept, Offset(page, limit), limit), page, limit, CeilDiv(|kept|, limit), |kept|)
  }

  /**
   `GET /inventory`. A caller without a company is refused before any row is
   read; otherwise the filtered summaries are counted and one page is cut.
   */
  function Index(rows: Ledger, q: StockQuery, matches: Movement -> bool): (r: Result<StockPage, Failure>)
    requires HasCompany(q.companyId) ==> EffectiveLimit(q) > 0
    ensures r.Err? <==> !HasCompany(q.companyId)
    ensures r.Err? ==> r.error == NoCompany
    ensures r.Ok? ==> r.value.limit == EffectiveLimit(q) && r.value.page == EffectivePage(q)
    ensures r.Ok? && q.limit.None? ==> r.value.limit == DefaultLimit
    ensures r.Ok? && q.page.None? ==> r.value.page == DefaultPage
    ensures r.Ok? ==> r.value.totalCount == |Kept(rows, q, matches)|
    ensures r.Ok? ==> r.value == Paginate(Kept(rows, q, matches), EffectivePage(q), EffectiveLimit(q))
  {
    if !HasCompany(q.companyId) then Err(NoCompany)
    else Ok(Paginate(Kept(rows, q, matches), EffectivePage(q), EffectiveLimit(q)))
  }
}

=== FILE: stock_example.dfy ===
/** A worked aggregation: one product held in two warehouses. */
module StockExample {
  import opened Wrappers
  import opened Movements
  import opened Grouping
  import opened StockAggregator
  import Seqs

  const A1: Movement := Movement(1, 1, 7, 1, 1, None, None, 10.0, 10.0, None, None, 0, false)
  const A2: Movement := Movement(2, 1, 7, 2, 1, None, None, 4.0, 4.0, None, None, 0, false)

  /** The query text `product_id=7`. */
  const P7: Option<ProductParam> := Some(ProductParam("7", 7))

  function All(m: Movement): bool { true }

  function Query(below: Option<Threshold>): StockQuery {
    StockQuery(Some(1), None, None, P7, below)
  }

  lemma FetchBoth()
    ensures Fetch([A1, A2], 1, P7, All) == [A1, A2]
  {
    var keep := (m: Movement) => Live(m) && m.companyId == 1
                                 && (ProductFilterOn(P7) ==> m.productId == P7.value.value) && All(m);
    assert [A1][..0] == [];
    Seqs.FilterAppend([A1], A2, keep);
    assert Seqs.Filter([A1], keep) == [A1];
  }

  lemma GroupOne(key: Movement -> int, order: KeyOrder)
    ensures Group([A1], key, order) == [Bucket(key(A1), [A1])]
  {
    assert [A1][..0] == [];
  }

  lemma ProductGroup()
    ensures Group([A1, A2], ProductOf, AscendingKeys) == [Bucket(7, [A1, A2])]
  {
    assert [A1, A2][..1] == [A1];
    GroupOne(ProductOf, AscendingKeys);
    var gs := [Bucket(7, [A1])];
    assert gs[1..] == [];
    assert Insert(gs, A2, ProductOf, AscendingKeys) == [Bucket(7, [A1] + [A2])] + gs[1..];
    assert [A1] + [A2] == [A1, A2];
  }

  lemma WarehouseGroup()
    ensures Group([A1, A2], WarehouseOf, FirstSeen) == [Bucket(1, [A1]), Bucket(2, [A2])]
  {
    assert [A1, A2][..1] == [A1];
    GroupOne(WarehouseOf, FirstSeen);
    var gs := [Bucket(1, [A1])];
    assert gs[1..] == [];
    assert Insert(gs[1..], A2, WarehouseOf, FirstSeen) == [Bucket(2, [A2])];
    assert Insert(gs, A2, WarehouseOf, FirstSeen) == [gs[0]] + Insert(gs[1..], A2, WarehouseOf, FirstSeen);
  }

  lemma Buckets()
    ensures ProductBuckets([A1, A2], 1, P7, All) == [Bucket(7, [A1, A2])]
    ensures Group([A1, A2], WarehouseOf, FirstSeen) == [Bucket(1, [A1]), Bucket(2, [A2])]
  {
    FetchBoth();
    ProductGroup();
    WarehouseGroup();
  }

  /** The example's two rows sum to 14. */
  lemma ExampleTotal()
    ensures Total([A1, A2]) == 14.0
  {
    assert [A1, A2][..1] == [A1];
    assert [A1][..0] == [];
    assert Total([A1]) == 10.0;
  }

  /** The summary of the example's product bucket: 14 in all, over two warehouse entries. */
  lemma ExampleSummary()
    ensures Summarize(Bucket(7, [A1, A2])).quantity == 14.0
    ensures |Summarize(Bucket(7, [A1, A2])).perWarehouse| == 2
  {
    ExampleTotal();
    WarehouseGroup();
  }

  /** The example's rows, passed as `rows`, make one summary: product 7, 14 in all, over two warehouse entries. */
  lemma OneSummary(rows: Ledger)
    requires rows == [A1, A2]
    ensures var gs := Groups(rows, 1, P7, All);
            && |gs| == 1 && gs[0].productId == 7 && gs[0].quantity == 14.0 && |gs[0].perWarehouse| == 2
  {
    Buckets();
    ExampleSummary();
  }

  /** A single summary is kept exactly when it passes the threshold test. */
  lemma FilterOne(g: StockGroup, t: Option<Threshold>)
    ensures FilterBelow([g], t) == if Below(t, g) then [g] else []
  {
    assert [g][..0] == [];
  }

  /** When a query has a single summary, it is kept exactly when it passes the threshold test. */
  lemma KeptOfOne(rows: Ledger, q: StockQuery, matches: Movement -> bool, g: StockGroup)
    requires HasCompany(q.companyId)
    requires Groups(rows, q.companyId.value, q.productId, matches) == [g]
    ensures Kept(rows, q, matches) == if Below(q.quantityBelow, g) then [g] else []
  {
    FilterOne(g, q.quantityBelow);
  }

  /** The example's single summary, named. */
  lemma TheSummary(rows: Ledger) returns (g: StockGroup)
    requires rows == [A1, A2]
    ensures Groups(rows, 1, P7, All) == [g] && g.quantity == 14.0
  {
    OneSummary(rows);
    g := Groups(rows, 1, P7, All)[0];
    assert Groups(rows, 1, P7, All) == [g];
  }

  /** The example's thresholds are not PHP-empty texts. */
  lemma ThresholdTexts()
    ensures !EmptyText("10") && !EmptyText("20")
  {
    assert "10"[1] == '0' && "20"[1] == '0';
  }

  /** For any ledger whose query yields one summary of 14: no threshold keeps it, 10 drops it, 20 keeps it. */
  lemma ThresholdsOf(rows: Ledger, g: StockGroup)
    requires Groups(rows, 1, P7, All) == [g] && g.quantity == 14.0
    ensures Kept(rows, Query(None), All) == [g]
    ensures Kept(rows, Query(Some(Threshold("10", 10.0))), All) == []
    ensures Kept(rows, Query(Some(Threshold("20", 20.0))), All) == [g]
  {
    ThresholdTexts();
    KeptOfOne(rows, Query(None), All, g);
    KeptOfOne(rows, Query(Some(Threshold("10", 10.0))), All, g);
    KeptOfOne(rows, Query(Some(Threshold("20", 20.0))), All, g);
  }

  /** No threshold keeps the example's summary, a threshold of 10 drops it and one of 20 keeps it. */
  lemma Thresholds(rows: Ledger)
    requires rows == [A1, A2]
    ensures Kept(rows, Query(None), All) == Groups(rows, 1, P7, All)
    ensures Kept(rows, Query(Some(Threshold("10", 10.0))), All) == []
    ensures |Kept(rows, Query(Some(Threshold("20", 20.0))), All)| == 1
  {
    var g := TheSummary(rows);
    ThresholdsOf(rows, g);
  }

  /** The first default-sized page of a single summary is that summary. */
  lemma OnePage(kept: seq<StockGroup>)
    requires |kept| == 1
    ensures Paginate(kept, DefaultPage, DefaultLimit).data == kept
    ensures Paginate(kept, DefaultPage, DefaultLimit).totalCount == 1
  {
    assert Offset(DefaultPage, DefaultLimit) == 0;
  }

  /**
   On the example's rows, product 7 totals 14 over two warehouse entries; a
   threshold of 10 drops it, one of 20 keeps it.
   */
  lemma TwoWarehouses(rows: Ledger)
    requires rows == [A1, A2]
    ensures var r := Index(rows, Query(None), All);
            && r.Ok? && r.value.totalCount == 1 && |r.value.data| == 1
            && r.value.data[0].quantity == 14.0 && |r.value.data[0].perWarehouse| == 2
    ensures Index(rows, Query(Some(Threshold("10", 10.0))), All).value.totalCount == 0
    ensures Index(rows, Query(Some(Threshold("20", 20.0))), All).value.totalCount == 1
  {
    OneSummary(rows);
    Thresholds(rows);
    OnePage(Kept(rows, Query(None), All));
  }
}

=== FILE: stock_theory.dfy ===
/** What the stock aggregator promises about its groups, its filter and its pages. */
module StockTheory {
  import opened Wrappers
  import opened Movements
  import Seqs
  import opened Grouping
  import opened StockAggregator

  /**
   Every summary is about one product that has fetched rows: its quantity is
   the sum of `quantity_movement` over those rows whatever their direction,
   it equals the sum of its per-warehouse quantities, and there is exactly one
   warehouse entry for each warehouse among those rows, summing its rows.
   */
  lemma GroupSummary(rows: Ledger, c: int, pf: Option<ProductParam>, matches: Movement -> bool, i: int)
    requires 0 <= i < |Groups(rows, c, pf, matches)|
    ensures var g := Groups(rows, c, pf, matches)[i];
            var items := Select(Fetch(rows, c, pf, matches), ProductOf, g.productId);
            && |items| > 0 && g.id == items[0].id
            && g.quantity == Total(items)
            && g.quantity == WarehousesTotal(g.perWarehouse)
            && (forall k :: 0 <= k < |g.perWarehouse| ==>
                  g.perWarehouse[k].quantity == Total(Select(items, WarehouseOf, g.perWarehouse[k].warehouseId)))
            && (forall k, l :: 0 <= k < l < |g.perWarehouse| ==>
                  g.perWarehouse[k].warehouseId != g.perWarehouse[l].warehouseId)
            && (forall m :: m in items ==>
                  exists k :: 0 <= k < |g.perWarehouse| && g.perWarehouse[k].warehouseId == m.warehouseId)
  {
    GroupBuckets(Fetch(rows, c, pf, matches), ProductOf, AscendingKeys, i);
  }

  /** Summaries come in strictly ascending product order, one per fetched product, no more than the rows. */
  lemma GroupsByProduct(rows: Ledger, c: int, pf: Option<ProductParam>, matches: Movement -> bool)
    ensures var gs := Groups(rows, c, pf, matches);
            && (forall i, j :: 0 <= i < j < |gs| ==> gs[i].productId < gs[j].productId)
            && (forall m :: m in Fetch(rows, c, pf, matches) ==> exists i :: 0 <= i < |gs| && gs[i].productId == m.productId)
            && |gs| <= |Fetch(rows, c, pf, matches)|
  {
    var fetched := Fetch(rows, c, pf, matches);
    var bs := ProductBuckets(rows, c, pf, matches);
    forall m | m in fetched ensures exists i :: 0 <= i < |bs| && bs[i].key == m.productId {
      GroupCovers(fetched, ProductOf, AscendingKeys, m);
    }
  }

  /**
   The threshold filter keeps an ascending order; with an empty
   `quantity_below` every summary is kept, otherwise exactly those whose
   quantity is strictly below it.
   */
  lemma FilterBelowSpec(gs: seq<StockGroup>, t: Option<Threshold>)
    requires forall i, j :: 0 <= i < j < |gs| ==> gs[i].productId < gs[j].productId
    ensures var kept := FilterBelow(gs, t);
            && (forall i, j :: 0 <= i < j < |kept| ==> kept[i].productId < kept[j].productId)
            && (t.None? || EmptyText(t.value.text) ==> kept == gs)
            && (t.Some? && !EmptyText(t.value.text) ==> forall g :: g in kept <==> g in gs && g.quantity < t.value.value)
  {
    var keep := (g: StockGroup) => Below(t, g);
    Seqs.FilterKeepsOrder(gs, keep, (a: StockGroup, b: StockGroup) => a.productId < b.productId);
    if t.None? || EmptyText(t.value.text) {
      Seqs.FilterAll(gs, keep);
    }
  }

  /** The kept summaries of a query: its product groups, thresholded, in ascending product order. */
  lemma KeptSpec(rows: Ledger, q: StockQuery, matches: Movement -> bool)
    requires HasCompany(q.companyId)
    ensures var kept := Kept(rows, q, matches);
            var gs := Groups(rows, q.companyId.value, q.productId, matches);
            && (forall i, j :: 0 <= i < j < |kept| ==> kept[i].productId < kept[j].productId)
            && (q.quantityBelow.None? || EmptyText(q.quantityBelow.value.text) ==> kept == gs)
            && (q.quantityBelow.Some? && !EmptyText(q.quantityBelow.value.text) ==>
                  forall g :: g in kept <==> g in gs && g.quantity < q.quantityBelow.value.value)
  {
    GroupsByProduct(rows, q.companyId.value, q.productId, matches);
    FilterBelowSpec(Groups(rows, q.companyId.value, q.productId, matches), q.quantityBelow);
  }
}

=== FILE: wrappers.dfy ===
/** Failure-carrying wrappers shared by every module of the model. */
module Wrappers {

  /** An optional value: a nullable column or an absent request field. */
  datatype Option<+T> = None | Some(value: T)

  /** The outcome of an operation that can fail with an error of type E. */
  datatype Result<+T, +E> = Ok(value: T) | Err(error: E)
}
